=== FILE: README.md ===
# Star-schema transformation of the production-tracking warehouse

This project models the dimensional transformation in `etl_process/load_to_sql.py`. It
takes the silver-layer manufacturing-order rows (one row per production order, with a
product code and attributes, a Responsible department, Start, End and Deadline dates, a
state and quantity measures) and derives five star-schema tables:

- **DimDate**: every date that occurs as a Start, End or Deadline, once, ascending, with
  its `YYYYMMDD` DateKey and its calendar fields (year, quarter, month, month name, day,
  day of week 1–7 counted from Monday, day name).
- **DimDepartment**: one row per distinct present Responsible, in order of first
  appearance, with the token `DEPT_<n>`. The department at row n gets surrogate key n.
- **DimProductCategory**: one row per distinct present product category. Key n is row n.
- **DimProduct**: one row per distinct eight-column product attribute tuple, with the
  category replaced by its category key.
- **FactProduction**: one row per input row. The product code, Responsible and the three
  dates are replaced by ProductKey, DepartmentKey and three DateKeys. The other columns
  are copied. The script's ProductKey does not always name the right DimProduct row (see
  Findings). `StarSchema.Transform` uses the corrected key, and `StarSchema.AsWrittenFacts`
  keeps the key as written.

The surrogate-key dictionaries are built by the script's `enumerate` loops. They are
modelled as the method `KeyMapper.BuildKeyMapping`, which is proved equal to the
recursive function `KeyMapping`. The rest of the transformation is pure and is modelled as
functions over sequences. `StarSchema.Transform` runs the steps in the script's order.

Modules:

- `Collections`: `dropna`, `unique` and `drop_duplicates` (first-appearance order).
- `Decimal`: digit strings.
- `Calendar`: dates, DateKey, quarter, weekday, names, sorting.
- `KeyMapper`: the key dictionaries and `Series.map`.
- `Records`: the input and output rows.
- `DateDimension`, `EntityDimensions` and `FactProjection`: the tables.
- `StarSchema`: the pipeline, referential integrity, the product-key finding and a worked
  example.

The tables have exactly the columns the script writes:

- DimDate has DateKey, Date, Year, Quarter, Month, MonthName, Day, DayOfWeek and
  DayOfWeekName (`load_to_sql.py:158`).
- DimDepartment has only DepartmentID and DepartmentName (`load_to_sql.py:168-171`). No
  DepartmentKey column is written; the key is the row's 1-based position.
- DimProductCategory has only ProductCategoryName (`load_to_sql.py:186-188`).
- DimProduct has ProductCode, ProductName, ProductCategoryKey and the five remaining
  product attributes, and no ProductKey column (`load_to_sql.py:220-221`).
- FactProduction's columns come in this order: Reference, State, the five measures, then
  ProductKey, DepartmentKey, StartDateKey, EndDateKey, DeadlineDateKey
  (`load_to_sql.py:241-253`).

## Model

| member | source | states |
|---|---|---|
| Collections.Present | etl_process/load_to_sql.py:137-139 | `dropna()` keeps exactly the present values of a column and never adds any |
| Collections.PresentMultiplicity | etl_process/load_to_sql.py:137-139 | `dropna()` keeps duplicates: each value occurs as often as the cells holding it |
| Collections.PresentFirstIndex | etl_process/load_to_sql.py:137-139 | `dropna()` keeps order: of two present values, one comes first after `dropna()` exactly when its first cell comes first in the column |
| Collections.DistinctPresentFirstAppearance | etl_process/load_to_sql.py:167 | `dropna().unique()` lists the present values in the order of their first cell in the column |
| Collections.Distinct | etl_process/load_to_sql.py:140 | `unique()`/`drop_duplicates()` yields no value twice and exactly the members of its input |
| Collections.DistinctFirstAppearance | etl_process/load_to_sql.py:167 | `unique()` lists values in the order of their first appearance in the input |
| Collections.DistinctCardinality | etl_process/load_to_sql.py:167 | `unique()` yields as many values as the input has distinct values |
| Calendar.FormatYmdReadsBack | etl_process/load_to_sql.py:155 | the eight `%Y%m%d` digits read as an integer are year·10000 + month·100 + day |
| Calendar.FormatYmd | etl_process/load_to_sql.py:155 | `strftime('%Y%m%d')` is eight digits |
| Calendar.DateKey | etl_process/load_to_sql.py:155 | DateKey is year·10000 + month·100 + day and lies in 10000101..99991231 |
| Calendar.DateKeyRoundTrip | etl_process/load_to_sql.py:155 | splitting a DateKey back into year, month and day gives the date again |
| Calendar.DateKeyInjective | etl_process/load_to_sql.py:155 | two dates share a DateKey only if they are the same date |
| Calendar.DateKeyMonotone | etl_process/load_to_sql.py:140-155 | one date is earlier than another exactly when its DateKey is smaller |
| Calendar.BeforeStrictTotal | etl_process/load_to_sql.py:140 | the date order `sort_values()` uses is irreflexive, transitive, asymmetric and total |
| Calendar.Quarter | etl_process/load_to_sql.py:146 | the quarter is 1..4 and is the one whose three months contain the date's month |
| Calendar.Weekday | etl_process/load_to_sql.py:150 | `dayofweek` is 0..6 |
| Calendar.MonthName | etl_process/load_to_sql.py:148 | the `%B` name identifies the month: it is the k-th English month name exactly when the month is k |
| Calendar.DayName | etl_process/load_to_sql.py:151 | the `%A` name identifies the weekday: it is the k-th English day name, Monday first, exactly when `dayofweek` is k |
| Calendar.NextDayCount | etl_process/load_to_sql.py:150 | the day count behind the weekday advances by exactly one from a date to the next calendar day, across month, year and leap-day boundaries |
| Calendar.WeekdayOfNextDay | etl_process/load_to_sql.py:150 | the weekday of the next calendar day is the weekday after this one, Sunday wrapping to Monday |
| Calendar.WeekdayAnchor | etl_process/load_to_sql.py:150 | 2024-01-08 is a Monday (`dayofweek` 0) |
| Calendar.SortDates | etl_process/load_to_sql.py:140 | `sort_values()` of distinct dates yields them strictly ascending and as a permutation of the input |
| Calendar.AscendingUnique | etl_process/load_to_sql.py:140 | two strictly ascending arrangements of the same dates are equal, so the sorted result is unique |
| Calendar.SortAscending | etl_process/load_to_sql.py:140 | sorting dates that are already ascending leaves them unchanged |
| Decimal.ParseNatToString | etl_process/load_to_sql.py:169 | the number written in a `DEPT_<n>` token reads back as n |
| Decimal.NatToStringInjective | etl_process/load_to_sql.py:169 | different numbers are written as different digit strings |
| KeyMapper.KeyMapping | etl_process/load_to_sql.py:177-179 | after the enumerate loop, exactly the enumerated values are keys, each bound to one more than its last position |
| KeyMapper.BuildKeyMapping | etl_process/load_to_sql.py:177-179 | the loop builds exactly `KeyMapping`; its keys are the values; over distinct values the i-th value gets i + 1 |
| KeyMapper.KeyMappingDense | etl_process/load_to_sql.py:194-196 | over distinct values the keys are exactly 1..n: value i gets i + 1, no key is shared, and there are n entries |
| KeyMapper.KeyOfDistinct | etl_process/load_to_sql.py:177-179 | over distinct values, the value at position i is bound to i + 1 |
| KeyMapper.KeyNamesPosition | etl_process/load_to_sql.py:228-229 | the key of a value, minus one, is a position that holds that value |
| KeyMapper.Lookup | etl_process/load_to_sql.py:246-247 | `Series.map(dict)` gives the mapped key for a present, mapped value and a missing cell otherwise |
| DateDimension.AllDates | etl_process/load_to_sql.py:136-139 | the concatenation of the three `dropna()` columns holds a date exactly when some Start, End or Deadline cell holds it |
| DateDimension.AllDatesMultiplicity | etl_process/load_to_sql.py:136-139 | the concatenation keeps duplicates: each date occurs once for every Start, End and Deadline cell holding it |
| DateDimension.AllDatesMember | etl_process/load_to_sql.py:136-139 | a date is collected exactly when it is some row's Start, End or Deadline |
| DateDimension.DateRow | etl_process/load_to_sql.py:143-158 | a DimDate row's key decodes to its year, month and day; its quarter contains its month; DayOfWeek is `dayofweek` + 1 in 1..7; the names are the English month and day names |
| DateDimension.DimDateDates | etl_process/load_to_sql.py:136-140 | the concatenated, de-duplicated and sorted dates are strictly ascending and are exactly the collected dates |
| DateDimension.BuildDimDate | etl_process/load_to_sql.py:143-158 | DimDate has one row per sorted date, in that order, each the derived row of its date |
| DateDimension.DimDateMembers | etl_process/load_to_sql.py:136-140 | DimDate has a row for a date exactly when the date is some row's Start, End or Deadline |
| DateDimension.DimDateAscending | etl_process/load_to_sql.py:140-155 | DimDate's dates and DateKeys are both strictly ascending |
| DateDimension.DimDateCount | etl_process/load_to_sql.py:136-140 | DimDate has one row per distinct date, and none when no row has a date |
| DateDimension.DimDateCanonical | etl_process/load_to_sql.py:136-140 | any strictly ascending sequence of exactly the occurring dates is DimDate's date column |
| EntityDimensions.DepartmentNames | etl_process/load_to_sql.py:167 | `dropna().unique()` of Responsible holds each present name once, no other, ordered by the first row naming it |
| EntityDimensions.DepartmentId | etl_process/load_to_sql.py:169 | the ID of position i is `DEPT_` followed by digits that read back as i + 1 |
| EntityDimensions.ResponsibleMember | etl_process/load_to_sql.py:167 | a department name is listed exactly when some row has it as Responsible |
| EntityDimensions.BuildDimDepartment | etl_process/load_to_sql.py:167-171 | row i of DimDepartment holds the i-th distinct department name and the ID `DEPT_<i+1>`, and no name occurs twice |
| EntityDimensions.DimDepartmentContents | etl_process/load_to_sql.py:167-171 | DimDepartment has a row for a name exactly when some row has it as Responsible, with no name twice, one row per distinct present name, ordered by the first input row naming each department |
| EntityDimensions.DepartmentKeysMatchRows | etl_process/load_to_sql.py:168-179 | the department in row i gets key i + 1 from the loop, and its DepartmentID is `DEPT_<i+1>` |
| EntityDimensions.DepartmentIdsDistinct | etl_process/load_to_sql.py:169 | no two DimDepartment rows share a DepartmentID |
| EntityDimensions.CategoryNames | etl_process/load_to_sql.py:185 | `dropna().unique()` of Product_Category holds each present category once, no other, ordered by the first row having it |
| EntityDimensions.CategoryMember | etl_process/load_to_sql.py:185 | a category is listed exactly when some row has it |
| EntityDimensions.BuildDimProductCategory | etl_process/load_to_sql.py:185-188 | row i of DimProductCategory holds the i-th distinct category, and no name occurs twice |
| EntityDimensions.DimProductCategoryContents | etl_process/load_to_sql.py:185-188 | DimProductCategory has a row for a category exactly when some row has it, one row per distinct present category, ordered by the first input row having each category |
| EntityDimensions.CategoryKeysMatchRows | etl_process/load_to_sql.py:185-196 | the category in row i gets key i + 1 |
| EntityDimensions.ProductTuples | etl_process/load_to_sql.py:202-203 | `drop_duplicates()` on the eight product columns holds each occurring tuple once, no other, ordered by the first row carrying it |
| EntityDimensions.DimProductTuples | etl_process/load_to_sql.py:202-203 | DimProduct holds each product attribute tuple that occurs in the input exactly once, and no other, in first-appearance order |
| EntityDimensions.ProductRow | etl_process/load_to_sql.py:206-221 | a DimProduct row copies the seven product attributes other than the category, and its ProductCategoryKey is the category's key, missing when the category is missing or unmapped |
| EntityDimensions.BuildDimProduct | etl_process/load_to_sql.py:202-221 | row i of DimProduct is built from the i-th distinct product tuple |
| EntityDimensions.CategoryKeyOfTuple | etl_process/load_to_sql.py:206 | a product tuple's category key is missing exactly when its category is, and otherwise names the DimProductCategory row of that category |
| EntityDimensions.DimProductCategoryKeys | etl_process/load_to_sql.py:206 | a DimProduct row's ProductCategoryKey is missing exactly when its category is, and otherwise names the DimProductCategory row of that category |
| EntityDimensions.DistinctCodesOfDistinct | etl_process/load_to_sql.py:228 | the distinct codes of the de-duplicated product table are the distinct codes of the raw product columns, in the same order |
| EntityDimensions.ProductCodes | etl_process/load_to_sql.py:228 | the codes enumerated for `product_mapping` are duplicate-free and are exactly the present codes of the de-duplicated product table |
| EntityDimensions.ProductCodesFirstAppearance | etl_process/load_to_sql.py:228 | the enumerated codes are exactly the present codes of the input rows, ordered by the first input row carrying each code |
| FactProjection.DateToKey | etl_process/load_to_sql.py:235-238 | `date_to_key` is missing exactly for a missing date; otherwise it is year·10000 + month·100 + day and decodes back to the date |
| FactProjection.ResolvedDateUnique | etl_process/load_to_sql.py:235-238 | the only integer cell that decodes to a date is that date's `date_to_key` |
| FactProjection.ProjectFact | etl_process/load_to_sql.py:241-253 | a fact row resolves its product and department keys through the mappings (missing for a missing or unmapped value), encodes its three dates with `date_to_key`, and copies Reference, State and the five measures |
| FactProjection.BuildFactProduction | etl_process/load_to_sql.py:241-262 | one fact row per input row, in order; each has its keys resolved through the mappings, its dates encoded and its other columns copied |
| StarSchema.DepartmentMapping | etl_process/load_to_sql.py:177-179 | `department_mapping` has exactly the departments as keys, and the department of DimDepartment row i gets key i + 1 |
| StarSchema.CategoryMapping | etl_process/load_to_sql.py:194-196 | `category_mapping` has exactly the categories as keys, and the category of DimProductCategory row i gets key i + 1 |
| StarSchema.ProductMapping | etl_process/load_to_sql.py:227-229 | `product_mapping` as written has exactly the distinct present codes as keys, and the i-th code gets key i + 1, so keys count codes, not DimProduct rows |
| StarSchema.CorrectedProductMapping | etl_process/load_to_sql.py:227-229 | the corrected mapping has exactly DimProduct's tuples as keys, and the tuple of DimProduct row i gets key i + 1 |
| StarSchema.AsWrittenFacts | etl_process/load_to_sql.py:241-253 | FactProduction as the script builds it: one row per input row, the projection of that row with ProductKey looked up by product code |
| StarSchema.Facts | etl_process/load_to_sql.py:241-253 | FactProduction with the corrected ProductKey: one row per input row, the projection of that row with ProductKey looked up by the whole product tuple |
| StarSchema.StarTables | etl_process/load_to_sql.py:136-253 | with the ProductKey corrected (see Findings), the five tables have one DimDate row per distinct date, one row per distinct present department, one per distinct present category, one per distinct product tuple, and one fact row per input row |
| StarSchema.FactDepartmentAndDates | etl_process/load_to_sql.py:247-250 | a fact row's DepartmentKey is its Responsible looked up in `department_mapping` and its date keys are `date_to_key` of its dates; the as-written and corrected rows differ only in ProductKey |
| StarSchema.DepartmentKeyOfName | etl_process/load_to_sql.py:247 | the key of a Responsible is missing exactly when the Responsible is; otherwise it names the DimDepartment row of that name, whose ID is `DEPT_<key>` |
| StarSchema.FactDepartmentKeys | etl_process/load_to_sql.py:247 | every fact DepartmentKey is missing exactly when Responsible is, and otherwise names the DimDepartment row of that Responsible |
| StarSchema.DateKeyResolves | etl_process/load_to_sql.py:248-250 | the key of an occurring date is the DateKey of a DimDate row |
| StarSchema.FactDateKeys | etl_process/load_to_sql.py:248-250 | every fact Start, End and Deadline key is the DateKey of a DimDate row |
| StarSchema.AsWrittenProductKeyOfOrder | etl_process/load_to_sql.py:246 | as written, an order's ProductKey is missing exactly when its code is; otherwise key k is the k-th distinct code, and some DimProduct row carries that code |
| StarSchema.AsWrittenProductKeys | etl_process/load_to_sql.py:246 | as written, the same holds for every fact row |
| StarSchema.ProductKeyOfOrder | etl_process/load_to_sql.py:227-246 | with the mapping keyed by the whole tuple, an order's ProductKey k names DimProduct row k, which is built from the order's own attribute tuple |
| StarSchema.FactProductKeys | etl_process/load_to_sql.py:227-246 | with the corrected mapping, every fact ProductKey names the DimProduct row of its order's product |
| StarSchema.Transform | etl_process/load_to_sql.py:136-262 | running the steps in order, with the enumerate loops, yields the five tables and one fact row per input row; department and date keys resolve into their dimensions, each (corrected) product key names the DimProduct row of the order's product, and each ProductCategoryKey is missing exactly when the category is and otherwise names that category's row |
| StarSchema.SharedCodeCodes | etl_process/load_to_sql.py:228 | two P1 tuples and one P2 tuple give the distinct codes P1, P2 |
| StarSchema.SharedCodeShiftsProductKeys | etl_process/load_to_sql.py:202-229 | as written, with two P1 tuples and one P2, DimProduct has three rows, the P2 order gets ProductKey 2, and DimProduct's row 2 is a P1 tuple |
| StarSchema.CorrectedKeyOfSharedCode | etl_process/load_to_sql.py:227-229 | on the same three orders, the corrected key of the P2 order is 3, the row that carries P2 |
| StarSchema.SingleOrderDates | etl_process/load_to_sql.py:136-140 | order MO001 (2024-01-10, 2024-01-12, 2024-01-15) gives those three dates, ascending |
| StarSchema.SingleOrderDimDate | etl_process/load_to_sql.py:143-158 | its DimDate is the three rows of those dates, keyed 20240110, 20240112 and 20240115 |
| StarSchema.SingleOrderFirstDate | etl_process/load_to_sql.py:146-151 | 2024-01-10 is Wednesday (DayOfWeek 3) in January of quarter 1 |
| StarSchema.SingleOrderDimDepartment | etl_process/load_to_sql.py:167-171 | its DimDepartment is the single row (DEPT_1, Assembly) |
| StarSchema.SingleOrderFact | etl_process/load_to_sql.py:246-250 | its fact row has DepartmentKey 1 and date keys 20240110, 20240112 and 20240115 |

## Left out

- Reading the silver-layer parquet files and picking the latest folder are left out. Those are file I/O.
- The database connection and `load_dataframe_to_sql` are left out: it opens a
  connection and runs one `INSERT` per row. It commits after each row whose index label is
  a multiple of 1000 (`etl_process/load_to_sql.py`, line 101), and once at the end. DimProduct keeps the input's labels
  after `drop_duplicates()`, so its commits fall at irregular points. So is
  its ignored `if_exists` argument. `execute_sql` is never called. The model ends with the
  five tables in memory and says nothing about what the store holds.
- Logging and the Spark session are left out, and so is the error handling. A failed read
  of the silver layer logs the error and exits (lines 124-128). The whole transformation
  runs inside one `try` (line 131). An exception in any step is logged (lines 269-272), and
  every later step, with its table, is skipped. The script then goes on to `spark.stop()`.
  The model has no exceptions. No step it models fails on valid dates: every date has a
  four-digit year, and every lookup that misses gives a missing cell.
- Floating-point measures (cost, price, margin, quantities, efficiency, duration) are
  carried as opaque `real` values and never computed with. NaN is modelled as a missing
  cell. `drop_duplicates` treats NaN as equal to NaN, and so does the model.
- pandas column dtypes are not modelled. A key column that has any missing cell becomes
  float in pandas; the model keeps integer keys with explicit missing cells.
- Dates are calendar days. A time-of-day part of Start, End or Deadline is not modelled.
  With one, `drop_duplicates()` at line 140 keeps one row per distinct timestamp, and two
  timestamps of the same day share one `%Y%m%d` DateKey (line 155). DimDate would then
  repeat that DateKey. So DimDateAscending's strictly ascending keys, DimDateCount's row
  count and "every date once" hold only when the three columns carry dates without a time
  of day.
- Calendar.Weekday: the weekday is computed from a proleptic-Gregorian day count rather
  than taken from pandas.
- `%B`/`%A` names are the fixed English-locale names, not the platform locale's.
- Calendar.ValidDate: years are limited to 1000..9999, so that `%Y` has four digits and
  DateKey has eight.
- EntityDimensions.ProductCodes: missing product codes are dropped before the codes are
  enumerated. The script's `unique()` at line 228 keeps a missing code. That code takes a
  key position of its own, so codes after it get keys one higher than in the model. The
  model never gives a missing code a key.
- Column renaming and column selection are modelled by the record field names. No
  separate operation models them.

## Findings

| source | as written | input that shows it | evidently intended | confidence | as-written member | corrected member |
|---|---|---|---|---|---|---|
| etl_process/load_to_sql.py:227-229 | `product_mapping` enumerates `products['Product_Code'].unique()`, but DimProduct (202-203) is de-duplicated on the whole eight-column tuple, so one code can own several DimProduct rows while receiving one key; every code first seen after such an extra tuple then gets a key that points at the wrong DimProduct row | orders (P1, cost 1), (P1, cost 2), (P2, cost 3): DimProduct has rows P1, P1, P2, but the P2 order gets ProductKey 2, which is DimProduct's second P1 row | key k names DimProduct row k, as DepartmentKey and ProductCategoryKey do for their dimensions: enumerate DimProduct's own rows | not executed; follows from the two lines as written | StarSchema.SharedCodeShiftsProductKeys | StarSchema.ProductKeyOfOrder |

=== FILE: calendar.dfy ===
/** Calendar dates as the loader sees them (pandas timestamps reduced to their date),
    the `%Y%m%d` integer key, the calendar fields of the date dimension, and
    ascending date order. */
module Calendar {
  import opened Collections
  import opened Decimal

  datatype Date = Date(year: int, month: int, day: int)

  predicate IsLeapYear(y: int) {
    y % 4 == 0 && (y % 100 != 0 || y % 400 == 0)
  }

  function DaysInMonth(y: int, m: int): (n: int)
    requires 1 <= m <= 12
    ensures 28 <= n <= 31
  {
    if m == 2 then (if IsLeapYear(y) then 29 else 28)
    else if m == 4 || m == 6 || m == 9 || m == 11 then 30
    else 31
  }

  /** A real calendar date with a four-digit year (pandas timestamps lie in 1677..2262). */
  predicate Valid(d: Date) {
    1000 <= d.year <= 9999 && 1 <= d.month <= 12 && 1 <= d.day <= DaysInMonth(d.year, d.month)
  }

  type ValidDate = d: Date | Valid(d) witness Date(1970, 1, 1)

  /** Chronological order: lexicographic on (year, month, day). */
  predicate Before(a: Date, b: Date) {
    a.year < b.year
    || (a.year == b.year && a.month < b.month)
    || (a.year == b.year && a.month == b.month && a.day < b.day)
  }

  /** `Before` is a strict total order. */
  lemma BeforeStrictTotal(a: Date, b: Date, c: Date)
    ensures !Before(a, a)
    ensures Before(a, b) && Before(b, c) ==> Before(a, c)
    ensures a != b ==> Before(a, b) || Before(b, a)
    ensures Before(a, b) ==> !Before(b, a)
  {
  }

  // ---------------------------------------------------------------------------
  // DateKey: `int(date.strftime('%Y%m%d'))`

  /** `strftime('%Y%m%d')`: four-digit year, two-digit month, two-digit day. */
  function FormatYmd(d: ValidDate): (s: string)
    ensures |s| == 8 && AllDigits(s)
  {
    Padded(d.year, 4) + Padded(d.month, 2) + Padded(d.day, 2)
  }

  /** Reading the eight digits back as an integer gives year*10000 + month*100 + day. */
  lemma FormatYmdReadsBack(d: ValidDate)
    ensures ParseDigits(FormatYmd(d)) == d.year * 10000 + d.month * 100 + d.day
  {
    var y, m, dd := Padded(d.year, 4), Padded(d.month, 2), Padded(d.day, 2);
    assert Pow10(2) == 100;
    assert Pow10(4) == 10000;
    ParsePadded(d.year, 4);
    ParsePadded(d.month, 2);
    ParsePadded(d.day, 2);
    ParseConcat(y, m);
    var ym := d.year * 100 + d.month;
    assert ParseDigits(y + m) == ym;
    ParseConcat(y + m, dd);
    assert ParseDigits(y + m + dd) == ym * 100 + d.day;
  }

  /** The DateKey of a date: the `%Y%m%d` text read as an integer. */
  function DateKey(d: ValidDate): (k: int)
    ensures k == d.year * 10000 + d.month * 100 + d.day
    ensures 10000101 <= k <= 99991231
  {
    FormatYmdReadsBack(d);
    ParseDigits(FormatYmd(d))
  }

  /** Splits an eight-digit key into its year, month and day fields. */
  function DecodeDateKey(k: int): Date {
    Date(k / 10000, (k / 100) % 100, k % 100)
  }

  /** The key is lossless: decoding it gives the date back. */
  lemma DateKeyRoundTrip(d: ValidDate)
    ensures DecodeDateKey(DateKey(d)) == d
  {
    var k := DateKey(d);
    RemainderOf(k, 10000, d.year, d.month * 100 + d.day);
    RemainderOf(k, 100, d.year * 100 + d.month, d.day);
    RemainderOf(d.year * 100 + d.month, 100, d.year, d.month);
  }

  /** Distinct dates have distinct keys. */
  lemma DateKeyInjective(a: ValidDate, b: ValidDate)
    ensures DateKey(a) == DateKey(b) ==> a == b
  {
    DateKeyRoundTrip(a);
    DateKeyRoundTrip(b);
  }

  /** Key order is date order. */
  lemma DateKeyMonotone(a: ValidDate, b: ValidDate)
    ensures Before(a, b) <==> DateKey(a) < DateKey(b)
  {
  }

  // ---------------------------------------------------------------------------
  // Calendar fields of the date dimension

  /** `dt.quarter`: months 1-3 are quarter 1, and so on. */
  function Quarter(d: ValidDate): (q: int)
    ensures 1 <= q <= 4
    ensures 3 * (q - 1) < d.month <= 3 * q
  {
    (d.month - 1) / 3 + 1
  }

  /** Days since 1970-01-01 in the proleptic Gregorian calendar, counting years from March
      so that the leap day falls at the end of the year. */
  function DaysFromCivil(d: Date): int {
    var y := if d.month <= 2 then d.year - 1 else d.year;
    var era := y / 400;
    var yoe := y - era * 400;
    var mp := if d.month > 2 then d.month - 3 else d.month + 9;
    var doy := (153 * mp + 2) / 5 + d.day - 1;
    var doe := yoe * 365 + yoe / 4 - yoe / 100 + doy;
    era * 146097 + doe - 719468
  }

  /** `dt.dayofweek`: 0 for Monday through 6 for Sunday (1970-01-01 was a Thursday). */
  function Weekday(d: Date): (w: int)
    ensures 0 <= w <= 6
  {
    (DaysFromCivil(d) + 3) % 7
  }

  /** The calendar day after `d`. */
  function NextDay(d: ValidDate): (n: Date)
    ensures Before(d, n)
  {
    if d.day < DaysInMonth(d.year, d.month) then Date(d.year, d.month, d.day + 1)
    else if d.month < 12 then Date(d.year, d.month + 1, 1)
    else Date(d.year + 1, 1, 1)
  }

  /** Day number of 1 March of year `y`. */
  function MarchFirst(y: int): int {
    var era := y / 400;
    var yoe := y - era * 400;
    era * 146097 + yoe * 365 + yoe / 4 - yoe / 100 - 719468
  }

  /** Counting down one position within a 400-year cycle adds a day at multiples of 4 and
      removes one at multiples of 100. */
  lemma CycleStep(yoe: int)
    requires 1 <= yoe < 400
    ensures yoe / 4 - (yoe - 1) / 4 == (if yoe % 4 == 0 then 1 else 0)
    ensures yoe / 100 - (yoe - 1) / 100 == (if yoe % 100 == 0 then 1 else 0)
  {
  }

  /** The quotient of `n` is `a` and its remainder `b` whenever `n` is `a` whole multiples
      of `m` plus `b`. */
  lemma RemainderOf(n: int, m: int, a: int, b: int)
    requires 0 <= b < m && n == m * a + b
    ensures n / m == a && n % m == b
  {
    var a2, b2 := n / m, n % m;
    assert m * (a - a2) == b2 - b;
    if a > a2 {
      MultipleAtLeast(m, a - a2);
      assert false;
    } else if a < a2 {
      MultipleAtLeast(m, a2 - a);
      assert false;
    }
  }

  lemma MultipleAtLeast(m: int, k: int)
    requires m > 0 && k >= 1
    ensures m * k >= m
  {
  }

  /** A year's residues modulo 4 and 100 are those of its position in the 400-year cycle. */
  lemma CycleResidues(y: int)
    ensures y % 4 == (y % 400) % 4 && y % 100 == (y % 400) % 100
  {
    var q, r := y / 400, y % 400;
    assert y == 400 * q + r;
    RemainderOf(y, 4, 100 * q + r / 4, r % 4);
    RemainderOf(y, 100, 4 * q + r / 100, r % 100);
  }

  /** The March-based year starting in `y - 1` has 366 days exactly when `y` is a leap year. */
  lemma YearLength(y: int)
    ensures MarchFirst(y) - MarchFirst(y - 1) == if IsLeapYear(y) then 366 else 365
  {
    var era, yoe := y / 400, y % 400;
    assert y - era * 400 == yoe;
    CycleResidues(y);
    if yoe == 0 {
      assert (y - 1) / 400 == era - 1;
      assert (y - 1) - (era - 1) * 400 == 399;
      assert MarchFirst(y - 1) == (era - 1) * 146097 + 399 * 365 + 99 - 3 - 719468;
    } else {
      assert (y - 1) / 400 == era;
      assert (y - 1) - era * 400 == yoe - 1;
      CycleStep(yoe);
    }
  }

  /** Days from 1 March to the first of month `m` in a March-based year. */
  function MonthOffset(m: int): int
    requires 1 <= m <= 12
  {
    (153 * (if m > 2 then m - 3 else m + 9) + 2) / 5
  }

  /** The day number is the day number of the March that starts the date's March-based year,
      plus the days before its month, plus its day of the month. */
  lemma DaysFromCivilSplit(d: Date)
    requires 1 <= d.month <= 12
    ensures DaysFromCivil(d)
         == MarchFirst(if d.month <= 2 then d.year - 1 else d.year) + MonthOffset(d.month) + d.day - 1
  {
  }

  /** Outside February, the next month starts one month-length later. */
  lemma MonthOffsetStep(y: int, m: int)
    requires 1 <= m <= 11 && m != 2
    ensures MonthOffset(m + 1) == MonthOffset(m) + DaysInMonth(y, m)
  {
    if m == 1 {
    } else if m == 3 {
    } else if m == 4 {
    } else if m == 5 {
    } else if m == 6 {
    } else if m == 7 {
    } else if m == 8 {
    } else if m == 9 {
    } else if m == 10 {
    } else {
    }
  }

  /** The day number of the next day is one more. */
  lemma NextDayCount(d: ValidDate)
    ensures DaysFromCivil(NextDay(d)) == DaysFromCivil(d) + 1
  {
    var n := NextDay(d);
    DaysFromCivilSplit(d);
    DaysFromCivilSplit(n);
    if d.day < DaysInMonth(d.year, d.month) {
    } else if d.month == 2 {
      YearLength(d.year);
      assert MonthOffset(2) == 337 && MonthOffset(3) == 0;
    } else if d.month < 12 {
      MonthOffsetStep(d.year, d.month);
    } else {
      assert MonthOffset(12) == 275 && MonthOffset(1) == 306;
    }
  }

  lemma ModSevenStep(n: int)
    ensures (n + 1) % 7 == (n % 7 + 1) % 7
  {
  }

  /** Consecutive days have consecutive weekdays, Sunday (6) wrapping to Monday (0). */
  lemma WeekdayOfNextDay(d: ValidDate)
    ensures Weekday(NextDay(d)) == (Weekday(d) + 1) % 7
  {
    NextDayCount(d);
    ModSevenStep(DaysFromCivil(d) + 3);
  }

  /** Monday 8 January 2024 has weekday 0. */
  lemma WeekdayAnchor()
    ensures Weekday(Date(2024, 1, 8)) == 0
  {
  }

  const MonthNames: seq<string> := ["January", "February", "March", "April", "May", "June",
    "July", "August", "September", "October", "November", "December"]

  const DayNames: seq<string> := ["Monday", "Tuesday", "Wednesday", "Thursday", "Friday",
    "Saturday", "Sunday"]

  /** `strftime('%B')` in the English locale: the name identifies the month. */
  function MonthName(d: ValidDate): (name: string)
    ensures forall k :: 0 <= k < |MonthNames| ==> (MonthNames[k] == name <==> k == d.month - 1)
  {
    MonthNames[d.month - 1]
  }

  /** `strftime('%A')` in the English locale: the name identifies the weekday, Monday
      being `dayofweek` 0. */
  function DayName(d: ValidDate): (name: string)
    ensures forall k :: 0 <= k < |DayNames| ==> (DayNames[k] == name <==> k == Weekday(d))
  {
    DayNames[Weekday(d)]
  }

  // ---------------------------------------------------------------------------
  // `sort_values()` on a column of distinct dates

  predicate StrictlyAscending(s: seq<Date>) {
    forall i, j :: 0 <= i < j < |s| ==> Before(s[i], s[j])
  }

  /** `h` comes before every element of `t`. */
  predicate Precedes(h: Date, t: seq<Date>) {
    forall i :: 0 <= i < |t| ==> Before(h, t[i])
  }

  lemma AscendingCons(h: Date, t: seq<Date>)
    requires StrictlyAscending(t) && Precedes(h, t)
    ensures StrictlyAscending([h] + t)
  {
    var r := [h] + t;
    forall i, j | 0 <= i < j < |r|
      ensures Before(r[i], r[j])
    {
      if i > 0 {
        assert r[i] == t[i - 1] && r[j] == t[j - 1];
      } else {
        assert r[j] == t[j - 1];
      }
    }
  }

  /** Places `x` into an ascending sequence it does not occur in. */
  function Insert(x: ValidDate, s: seq<ValidDate>): (r: seq<ValidDate>)
    requires StrictlyAscending(s) && x !in s
    ensures StrictlyAscending(r)
    ensures multiset(r) == multiset(s) + multiset{x}
  {
    if s == [] then [x]
    else if Before(x, s[0]) then
      assert Precedes(x, s) by {
        forall i | 0 <= i < |s|
          ensures Before(x, s[i])
        {
          BeforeStrictTotal(x, s[0], s[i]);
        }
      }
      AscendingCons(x, s);
      [x] + s
    else
      var tail := s[1..];
      assert s == [s[0]] + tail;
      assert StrictlyAscending(tail) by {
        forall i, j | 0 <= i < j < |tail|
          ensures Before(tail[i], tail[j])
        {
          assert tail[i] == s[i + 1] && tail[j] == s[j + 1];
        }
      }
      var t := Insert(x, tail);
      assert Precedes(s[0], t) by {
        BeforeStrictTotal(s[0], x, s[0]);
        forall i | 0 <= i < |t|
          ensures Before(s[0], t[i])
        {
          assert t[i] in multiset(t);
          if t[i] != x {
            assert t[i] in multiset(tail);
            var j :| 0 <= j < |tail| && tail[j] == t[i];
            assert s[j + 1] == t[i];
          }
        }
      }
      AscendingCons(s[0], t);
      [s[0]] + t
  }

  /** Sorts distinct dates ascending. */
  function SortDates(s: seq<ValidDate>): (r: seq<ValidDate>)
    requires NoDup(s)
    ensures StrictlyAscending(r)
    ensures multiset(r) == multiset(s)
  {
    if s == [] then []
    else
      var init := s[..|s| - 1];
      assert s == init + [s[|s| - 1]];
      var r := SortDates(init);
      assert s[|s| - 1] !in multiset(init);
      Insert(s[|s| - 1], r)
  }

  lemma AscendingTail(a: seq<Date>)
    requires StrictlyAscending(a) && a != []
    ensures StrictlyAscending(a[1..])
  {
    forall i, j | 0 <= i < j < |a| - 1
      ensures Before(a[1..][i], a[1..][j])
    {
      assert a[1..][i] == a[i + 1] && a[1..][j] == a[j + 1];
    }
  }

  /** Two ascending arrangements of the same dates start with the same date. */
  lemma AscendingSameHead(a: seq<Date>, b: seq<Date>)
    requires StrictlyAscending(a) && StrictlyAscending(b)
    requires multiset(a) == multiset(b) && a != []
    ensures b != [] && a[0] == b[0]
  {
    assert a[0] in multiset(b);
    assert b != [];
    assert b[0] in multiset(a);
    var i :| 0 <= i < |b| && b[i] == a[0];
    var j :| 0 <= j < |a| && a[j] == b[0];
    if i > 0 && j > 0 {
      BeforeStrictTotal(a[0], b[0], a[0]);
      assert false;
    }
  }

  /** There is only one ascending arrangement of a set of dates. */
  lemma {:induction false} AscendingUnique(a: seq<Date>, b: seq<Date>)
    requires StrictlyAscending(a) && StrictlyAscending(b)
    requires multiset(a) == multiset(b)
    ensures a == b
  {
    if a != [] {
      AscendingSameHead(a, b);
      assert a == [a[0]] + a[1..] && b == [b[0]] + b[1..];
      assert multiset(a[1..]) == multiset(a) - multiset{a[0]};
      assert multiset(b[1..]) == multiset(b) - multiset{b[0]};
      AscendingTail(a);
      AscendingTail(b);
      AscendingUnique(a[1..], b[1..]);
    }
  }

  /** Sorting dates that are already ascending leaves them as they are. */
  lemma SortAscending(s: seq<ValidDate>)
    requires NoDup(s) && StrictlyAscending(s)
    ensures SortDates(s) == s
  {
    AscendingUnique(SortDates(s), s);
  }
}

=== FILE: collections.dfy ===
/** Sequence helpers that stand for the pandas column operations the loader uses:
    `dropna()` (Present), `unique()` / `drop_duplicates()` (Distinct). */
module Collections {

  /** A cell that may be missing (pandas NaN / None). */
  datatype Option<+T> = None | Some(value: T)

  /** No element occurs twice. */
  predicate NoDup<T(==)>(s: seq<T>) {
    forall i, j :: 0 <= i < j < |s| ==> s[i] != s[j]
  }

  /** The elements of a sequence, as a set. */
  function Elements<T(!new)>(s: seq<T>): (r: set<T>)
    ensures forall x :: x in r <==> x in s
  {
    set x | x in s
  }

  /** Position of the first occurrence of `x` in `s`. */
  function FirstIndex<T(==)>(s: seq<T>, x: T): (i: nat)
    requires x in s
    ensures i < |s| && s[i] == x
    ensures forall j :: 0 <= j < i ==> s[j] != x
  {
    if s[0] == x then 0 else 1 + FirstIndex(s[1..], x)
  }

  /** Position of the last occurrence of `x` in `s`. */
  function LastIndex<T(==)>(s: seq<T>, x: T): (i: nat)
    requires x in s
    ensures i < |s| && s[i] == x
    ensures forall j :: i < j < |s| ==> s[j] != x
  {
    if s[|s| - 1] == x then |s| - 1 else LastIndex(s[..|s| - 1], x)
  }

  /** `dropna()` on a column: the present values, in order, duplicates kept. */
  function Present<T(!new)>(s: seq<Option<T>>): (r: seq<T>)
    ensures |r| <= |s|
    ensures forall x :: x in r <==> Some(x) in s
  {
    if s == [] then []
    else
      var init := s[..|s| - 1];
      assert s == init + [s[|s| - 1]];
      Present(init) + (if s[|s| - 1].Some? then [s[|s| - 1].value] else [])
  }

  /** Appending a cell to a column appends its value to the present values when it is there. */
  lemma PresentSnoc<T(!new)>(s: seq<Option<T>>, c: Option<T>)
    ensures Present(s + [c]) == Present(s) + (if c.Some? then [c.value] else [])
  {
    assert (s + [c])[..|s|] == s;
  }

  /** `dropna()` keeps duplicates: each value occurs as often as the column's cells holding it. */
  lemma {:induction false} PresentMultiplicity<T(!new)>(s: seq<Option<T>>)
    ensures forall x :: multiset(Present(s))[x] == multiset(s)[Some(x)]
  {
    if s != [] {
      var n := |s| - 1;
      assert s == s[..n] + [s[n]];
      PresentSnoc(s[..n], s[n]);
      PresentMultiplicity(s[..n]);
    }
  }

  /** `dropna()` keeps the order of the present values: of two present values, the one
      whose first cell comes earlier in the column comes earlier after `dropna()`. */
  lemma {:induction false} PresentFirstIndex<T(!new)>(s: seq<Option<T>>, x: T, y: T)
    requires Some(x) in s && Some(y) in s
    ensures x in Present(s) && y in Present(s)
    ensures FirstIndex(Present(s), x) < FirstIndex(Present(s), y)
            <==> FirstIndex(s, Some(x)) < FirstIndex(s, Some(y))
  {
    var n := |s| - 1;
    var init := s[..n];
    assert s == init + [s[n]];
    PresentSnoc(init, s[n]);
    var p := Present(init);
    assert Present(s)[..|p|] == p;
    if Some(x) in init {
      FirstIndexOfPrefix(s, n, Some(x));
      FirstIndexOfPrefix(Present(s), |p|, x);
    }
    if Some(y) in init {
      FirstIndexOfPrefix(s, n, Some(y));
      FirstIndexOfPrefix(Present(s), |p|, y);
    }
    if Some(x) in init && Some(y) in init {
      PresentFirstIndex(init, x, y);
    } else if Some(x) in init {
      assert s[n] == Some(y) && y !in p;
      assert FirstIndex(s, Some(y)) == n;
      assert FirstIndex(Present(s), y) == |p|;
    } else if Some(y) in init {
      assert s[n] == Some(x) && x !in p;
      assert FirstIndex(s, Some(x)) == n;
      assert FirstIndex(Present(s), x) == |p|;
    } else {
      assert s[n] == Some(x) && s[n] == Some(y);
    }
  }

  /** `dropna().unique()` lists the present values in the order of their first cell in the
      column. */
  lemma DistinctPresentFirstAppearance<T(!new)>(s: seq<Option<T>>)
    ensures forall i, j :: 0 <= i < j < |Distinct(Present(s))| ==>
              Some(Distinct(Present(s))[i]) in s && Some(Distinct(Present(s))[j]) in s
              && FirstIndex(s, Some(Distinct(Present(s))[i])) < FirstIndex(s, Some(Distinct(Present(s))[j]))
  {
    var d := Distinct(Present(s));
    DistinctFirstAppearance(Present(s));
    forall i, j | 0 <= i < j < |d|
      ensures Some(d[i]) in s && Some(d[j]) in s && FirstIndex(s, Some(d[i])) < FirstIndex(s, Some(d[j]))
    {
      PresentFirstIndex(s, d[i], d[j]);
    }
  }

  /** `unique()` / `drop_duplicates()`: each element once, at its first occurrence,
      in order of first appearance. */
  function Distinct<T(==,!new)>(s: seq<T>): (r: seq<T>)
    ensures NoDup(r)
    ensures |r| <= |s|
    ensures forall x :: x in r <==> x in s
  {
    if s == [] then []
    else
      var init := s[..|s| - 1];
      assert s == init + [s[|s| - 1]];
      var r := Distinct(init);
      if s[|s| - 1] in r then r else r + [s[|s| - 1]]
  }

  /** Appending one element to the input of Distinct appends it to the output unless it was
      already there. */
  lemma DistinctSnoc<T(!new)>(s: seq<T>, x: T)
    ensures Distinct(s + [x]) == if x in s then Distinct(s) else Distinct(s) + [x]
  {
    assert (s + [x])[..|s|] == s;
  }

  /** The first occurrence of an element of a prefix is inside that prefix. */
  lemma {:induction false} FirstIndexOfPrefix<T>(s: seq<T>, k: nat, x: T)
    requires k <= |s| && x in s[..k]
    ensures x in s && FirstIndex(s, x) == FirstIndex(s[..k], x)
  {
    var i := FirstIndex(s[..k], x);
    assert s[i] == x;
  }

  /** Distinct keeps first-appearance order: earlier in the result means first seen earlier. */
  lemma {:induction false} DistinctFirstAppearance<T(!new)>(s: seq<T>)
    ensures forall i, j :: 0 <= i < j < |Distinct(s)| ==>
      FirstIndex(s, Distinct(s)[i]) < FirstIndex(s, Distinct(s)[j])
  {
    if s != [] {
      var n := |s| - 1;
      var init := s[..n];
      assert s == init + [s[n]];
      DistinctFirstAppearance(init);
      var p := Distinct(init);
      forall x | x in p
        ensures FirstIndex(s, x) == FirstIndex(init, x) < n
      {
        FirstIndexOfPrefix(s, n, x);
      }
      if s[n] !in p {
        assert FirstIndex(s, s[n]) == n;
      }
    }
  }

  /** A duplicate-free sequence has as many distinct elements as positions. */
  lemma {:induction false} NoDupCardinality<T(!new)>(s: seq<T>)
    requires NoDup(s)
    ensures |Elements(s)| == |s|
  {
    if s != [] {
      var n := |s| - 1;
      assert s == s[..n] + [s[n]];
      NoDupCardinality(s[..n]);
      assert Elements(s) == Elements(s[..n]) + {s[n]};
      assert s[n] !in Elements(s[..n]);
    }
  }

  /** Distinct yields exactly one entry per distinct value of its input. */
  lemma DistinctCardinality<T(!new)>(s: seq<T>)
    ensures |Distinct(s)| == |Elements(s)|
  {
    NoDupCardinality(Distinct(s));
    assert Elements(Distinct(s)) == Elements(s);
  }

  /** In a duplicate-free sequence every element occurs once. */
  lemma {:induction false} NoDupMultiplicity<T>(s: seq<T>)
    requires NoDup(s)
    ensures forall x :: multiset(s)[x] == if x in s then 1 else 0
  {
    if s != [] {
      var n := |s| - 1;
      assert s == s[..n] + [s[n]];
      NoDupMultiplicity(s[..n]);
      assert s[n] !in s[..n];
    }
  }

  /** Two duplicate-free sequences with the same elements are permutations of each other. */
  lemma SameElementsPermutation<T>(a: seq<T>, b: seq<T>)
    requires NoDup(a) && NoDup(b)
    requires forall x :: x in a <==> x in b
    ensures multiset(a) == multiset(b)
  {
    NoDupMultiplicity(a);
    NoDupMultiplicity(b);
  }
}

=== FILE: date_dimension.dfy ===
/** The date dimension: every date that appears as a Start, End or Deadline, once, in
    ascending order, with the calendar fields pandas derives from it. */
module DateDimension {
  import opened Collections
  import opened Calendar
  import opened Records

  /** `d` is the Start, End or Deadline of some row. */
  predicate OccursIn(d: ValidDate, rows: seq<RawRecord>) {
    exists i :: 0 <= i < |rows| && (rows[i].start == Some(d) || rows[i].end == Some(d) || rows[i].deadline == Some(d))
  }

  /** No row has a Start, End or Deadline. */
  predicate NoDates(rows: seq<RawRecord>) {
    forall i :: 0 <= i < |rows| ==> rows[i].start.None? && rows[i].end.None? && rows[i].deadline.None?
  }

  /** The present dates of the three columns, concatenated (duplicates kept). */
  function AllDates(rows: seq<RawRecord>): (dates: seq<ValidDate>)
    ensures forall d :: d in dates <==>
              Some(d) in StartColumn(rows) || Some(d) in EndColumn(rows) || Some(d) in DeadlineColumn(rows)
  {
    Present(StartColumn(rows)) + Present(EndColumn(rows)) + Present(DeadlineColumn(rows))
  }

  /** Each collected date occurs once for every Start, End and Deadline cell holding it. */
  lemma AllDatesMultiplicity(rows: seq<RawRecord>)
    ensures forall d :: multiset(AllDates(rows))[d]
              == multiset(StartColumn(rows))[Some(d)] + multiset(EndColumn(rows))[Some(d)]
                 + multiset(DeadlineColumn(rows))[Some(d)]
  {
    PresentMultiplicity(StartColumn(rows));
    PresentMultiplicity(EndColumn(rows));
    PresentMultiplicity(DeadlineColumn(rows));
  }

  /** A date is among the collected dates exactly when some row has it as Start, End or
      Deadline. */
  lemma AllDatesMember(rows: seq<RawRecord>, d: ValidDate)
    ensures d in AllDates(rows) <==> OccursIn(d, rows)
  {
    var starts, ends, deadlines := StartColumn(rows), EndColumn(rows), DeadlineColumn(rows);
    if d in AllDates(rows) {
      if Some(d) in starts {
        var i :| 0 <= i < |starts| && starts[i] == Some(d);
        assert rows[i].start == Some(d);
      } else if Some(d) in ends {
        var i :| 0 <= i < |ends| && ends[i] == Some(d);
        assert rows[i].end == Some(d);
      } else {
        assert Some(d) in deadlines;
        var i :| 0 <= i < |deadlines| && deadlines[i] == Some(d);
        assert rows[i].deadline == Some(d);
      }
    }
    if OccursIn(d, rows) {
      var i :| 0 <= i < |rows| && (rows[i].start == Some(d) || rows[i].end == Some(d) || rows[i].deadline == Some(d));
      if rows[i].start == Some(d) {
        assert starts[i] == Some(d);
      } else if rows[i].end == Some(d) {
        assert ends[i] == Some(d);
      } else {
        assert deadlines[i] == Some(d);
      }
    }
  }

  /** One DimDate row. The key decodes to the row's own year, month and day; the quarter is
      the month's quarter; the weekday counts Monday as 1 and agrees with the weekday name. */
  function DateRow(d: ValidDate): (row: DimDateRow)
    ensures row.date == d
    ensures row.dateKey == d.year * 10000 + d.month * 100 + d.day
    ensures DecodeDateKey(row.dateKey) == Date(row.year, row.month, row.day) == d
    ensures 1 <= row.quarter <= 4 && 3 * (row.quarter - 1) < row.month <= 3 * row.quarter
    ensures 1 <= row.dayOfWeek <= 7 && row.dayOfWeek == Weekday(d) + 1
    ensures row.dayOfWeekName == DayNames[row.dayOfWeek - 1]
    ensures row.monthName == MonthNames[row.month - 1]
  {
    DateKeyRoundTrip(d);
    DimDateRow(DateKey(d), d, d.year, Quarter(d), d.month, MonthName(d), d.day, Weekday(d) + 1, DayName(d))
  }

  /** The distinct dates, sorted ascending: exactly the collected dates, each once. */
  function DimDateDates(rows: seq<RawRecord>): (dates: seq<ValidDate>)
    ensures StrictlyAscending(dates)
    ensures forall d :: d in dates <==> d in AllDates(rows)
  {
    var r := SortDates(Distinct(AllDates(rows)));
    assert forall d :: d in r <==> d in multiset(Distinct(AllDates(rows)));
    r
  }

  /** The DimDate table: the derived row of each of its dates, in ascending date order. */
  function BuildDimDate(rows: seq<RawRecord>): (dim: seq<DimDateRow>)
    ensures |dim| == |DimDateDates(rows)|
    ensures forall i :: 0 <= i < |dim| ==> dim[i] == DateRow(DimDateDates(rows)[i])
  {
    var dates := DimDateDates(rows);
    seq(|dates|, i requires 0 <= i < |dates| => DateRow(dates[i]))
  }

  /** DimDate has a row for a date exactly when that date is the Start, End or Deadline of
      some input row. */
  lemma DimDateMembers(rows: seq<RawRecord>, d: ValidDate)
    ensures (exists i :: 0 <= i < |BuildDimDate(rows)| && BuildDimDate(rows)[i].date == d)
            <==> OccursIn(d, rows)
  {
    var all := AllDates(rows);
    var dates := DimDateDates(rows);
    var dim := BuildDimDate(rows);
    assert multiset(dates) == multiset(Distinct(all));
    AllDatesMember(rows, d);
    if OccursIn(d, rows) {
      assert d in multiset(dates);
      var i :| 0 <= i < |dates| && dates[i] == d;
      assert dim[i].date == d;
    }
    if exists i :: 0 <= i < |dim| && dim[i].date == d {
      var i :| 0 <= i < |dim| && dim[i].date == d;
      assert dates[i] in multiset(Distinct(all));
    }
  }

  /** An occurring date's DateKey is the key of some DimDate row. */
  lemma DimDateKeyOf(rows: seq<RawRecord>, d: ValidDate)
    requires OccursIn(d, rows)
    ensures exists j :: 0 <= j < |BuildDimDate(rows)| && BuildDimDate(rows)[j].dateKey == DateKey(d)
  {
    var dim := BuildDimDate(rows);
    assert exists j :: 0 <= j < |dim| && dim[j].date == d by {
      DimDateMembers(rows, d);
    }
    var j :| 0 <= j < |dim| && dim[j].date == d;
    assert dim[j].dateKey == DateKey(d) by {
      assert dim[j] == DateRow(d);
    }
  }

  /** DimDate rows are in strictly ascending date order, and so in strictly ascending key
      order; in particular no date and no key occurs twice. */
  lemma DimDateAscending(rows: seq<RawRecord>)
    ensures forall i, j :: 0 <= i < j < |BuildDimDate(rows)| ==>
              Before(BuildDimDate(rows)[i].date, BuildDimDate(rows)[j].date)
              && BuildDimDate(rows)[i].dateKey < BuildDimDate(rows)[j].dateKey
  {
    var dates := DimDateDates(rows);
    var dim := BuildDimDate(rows);
    forall i, j | 0 <= i < j < |dim|
      ensures Before(dim[i].date, dim[j].date) && dim[i].dateKey < dim[j].dateKey
    {
      DateKeyMonotone(dates[i], dates[j]);
    }
  }

  /** DimDate has as many rows as there are distinct dates, and none when no input row has
      a date. */
  lemma DimDateCount(rows: seq<RawRecord>)
    ensures |BuildDimDate(rows)| == |Elements(AllDates(rows))|
    ensures NoDates(rows) ==> BuildDimDate(rows) == []
  {
    var all := AllDates(rows);
    var dates := DimDateDates(rows);
    assert |dates| == |Distinct(all)| by {
      assert |multiset(dates)| == |multiset(Distinct(all))|;
    }
    DistinctCardinality(all);
    if NoDates(rows) && all != [] {
      var d := all[0];
      AllDatesMember(rows, d);
      var i :| 0 <= i < |rows| && (rows[i].start == Some(d) || rows[i].end == Some(d) || rows[i].deadline == Some(d));
      assert false;
    }
  }

  /** The dates of DimDate are the only strictly ascending arrangement of the occurring
      dates: the result does not depend on how the sort is carried out. */
  lemma DimDateCanonical(rows: seq<RawRecord>, s: seq<ValidDate>)
    requires StrictlyAscending(s)
    requires forall d :: d in s <==> OccursIn(d, rows)
    ensures s == DimDateDates(rows)
  {
    var dates := DimDateDates(rows);
    var distinct := Distinct(AllDates(rows));
    forall d | true
      ensures d in s <==> d in distinct
    {
      AllDatesMember(rows, d);
    }
    assert NoDup(s) by {
      forall i, j | 0 <= i < j < |s|
        ensures s[i] != s[j]
      {
        BeforeStrictTotal(s[i], s[j], s[i]);
      }
    }
    SameElementsPermutation(s, distinct);
    AscendingUnique(s, dates);
  }
}

=== FILE: decimal.dfy ===
/** Decimal digit strings: the zero-padded fields `strftime('%Y%m%d')` writes,
    Python's `str()` of a natural number, and `int()` reading a digit string back. */
module Decimal {

  function Pow10(n: nat): (p: nat)
    ensures p >= 1
  {
    if n == 0 then 1 else 10 * Pow10(n - 1)
  }

  predicate IsDigit(c: char) {
    '0' <= c <= '9'
  }

  predicate AllDigits(s: string) {
    forall i :: 0 <= i < |s| ==> IsDigit(s[i])
  }

  function DigitChar(d: nat): (c: char)
    requires d < 10
    ensures IsDigit(c)
  {
    ('0' as int + d) as char
  }

  function DigitValue(c: char): (d: nat)
    requires IsDigit(c)
    ensures d < 10 && DigitChar(d) == c
  {
    c as int - '0' as int
  }

  /** The low `width` decimal digits of `n`, most significant first, zero-padded
      (the `%m`, `%d` and `%Y` conversions). */
  function Padded(n: nat, width: nat): (s: string)
    ensures |s| == width && AllDigits(s)
  {
    if width == 0 then [] else Padded(n / 10, width - 1) + [DigitChar(n % 10)]
  }

  /** `int(s)` for a string of decimal digits. */
  function ParseDigits(s: string): (n: nat)
    requires AllDigits(s)
    ensures n < Pow10(|s|)
  {
    if s == [] then 0
    else
      var init := s[..|s| - 1];
      assert AllDigits(init);
      10 * ParseDigits(init) + DigitValue(s[|s| - 1])
  }

  /** `str(n)` for a natural number: no leading zeros. */
  function NatToString(n: nat): (s: string)
    ensures |s| >= 1 && AllDigits(s)
  {
    if n < 10 then [DigitChar(n)] else NatToString(n / 10) + [DigitChar(n % 10)]
  }

  /** Reading back a zero-padded field of a number that fits in it gives the number. */
  lemma {:induction false} ParsePadded(n: nat, width: nat)
    requires n < Pow10(width)
    ensures ParseDigits(Padded(n, width)) == n
  {
    if width > 0 {
      var s := Padded(n, width);
      assert s[..|s| - 1] == Padded(n / 10, width - 1);
      assert n / 10 < Pow10(width - 1);
      ParsePadded(n / 10, width - 1);
    }
  }

  lemma Shift(x: int, p: int, y: int, d: int)
    ensures 10 * (x * p + y) + d == x * (10 * p) + (10 * y + d)
  {
  }

  /** Reading a concatenation: the left part is shifted by the length of the right part. */
  lemma {:induction false} ParseConcat(a: string, b: string)
    requires AllDigits(a) && AllDigits(b)
    ensures AllDigits(a + b)
    ensures ParseDigits(a + b) == ParseDigits(a) * Pow10(|b|) + ParseDigits(b)
  {
    assert AllDigits(a + b);
    if b != [] {
      var ab, init, last := a + b, b[..|b| - 1], b[|b| - 1];
      assert ab[..|ab| - 1] == a + init && ab[|ab| - 1] == last;
      assert b[..|b| - 1] == init;
      assert AllDigits(init);
      var x, p, y, d := ParseDigits(a), Pow10(|init|), ParseDigits(init), DigitValue(last);
      assert ParseDigits(ab) == 10 * ParseDigits(a + init) + d;
      assert ParseDigits(b) == 10 * y + d;
      assert Pow10(|b|) == 10 * p;
      ParseConcat(a, init);
      Shift(x, p, y, d);
    } else {
      assert a + b == a;
    }
  }

  /** `int(str(n)) == n`. */
  lemma {:induction false} ParseNatToString(n: nat)
    ensures ParseDigits(NatToString(n)) == n
  {
    if n >= 10 {
      var s := NatToString(n);
      assert s[..|s| - 1] == NatToString(n / 10);
      ParseNatToString(n / 10);
    }
  }

  /** Distinct numbers are written as distinct strings. */
  lemma NatToStringInjective(a: nat, b: nat)
    ensures NatToString(a) == NatToString(b) ==> a == b
  {
    ParseNatToString(a);
    ParseNatToString(b);
  }
}

=== FILE: entity_dimensions.dfy ===
/** The department, product-category and product dimensions, and the natural-key sequences
    whose enumeration gives their surrogate keys. */
module EntityDimensions {
  import opened Collections
  import opened Decimal
  import opened KeyMapper
  import opened Records

  // ---------------------------------------------------------------------------
  // DimDepartment

  /** `df['Responsible'].dropna().unique()`: each present Responsible once, in the order of
      the first row naming it. */
  function DepartmentNames(rows: seq<RawRecord>): (names: seq<string>)
    ensures NoDup(names)
    ensures forall x :: x in names <==> Some(x) in ResponsibleColumn(rows)
    ensures forall i, j :: 0 <= i < j < |names| ==>
              FirstIndex(ResponsibleColumn(rows), Some(names[i])) < FirstIndex(ResponsibleColumn(rows), Some(names[j]))
  {
    DistinctPresentFirstAppearance(ResponsibleColumn(rows));
    Distinct(Present(ResponsibleColumn(rows)))
  }

  /** The token `f"DEPT_{i+1}"` of the department at position `i`: the prefix `DEPT_`
      followed by digits that read back as i + 1. */
  function DepartmentId(i: nat): (id: string)
    ensures |id| > 5 && id[..5] == "DEPT_"
    ensures AllDigits(id[5..]) && ParseDigits(id[5..]) == i + 1
  {
    ParseNatToString(i + 1);
    var id := "DEPT_" + NatToString(i + 1);
    assert id[5..] == NatToString(i + 1);
    id
  }

  /** The DimDepartment table: one row per distinct department, numbered from 1, no
      DepartmentName twice. */
  function BuildDimDepartment(rows: seq<RawRecord>): (dim: seq<DimDepartmentRow>)
    ensures |dim| == |DepartmentNames(rows)|
    ensures forall i :: 0 <= i < |dim| ==>
              dim[i].departmentName == DepartmentNames(rows)[i] && dim[i].departmentId == "DEPT_" + NatToString(i + 1)
    ensures forall i, j :: 0 <= i < j < |dim| ==> dim[i].departmentName != dim[j].departmentName
  {
    var names := DepartmentNames(rows);
    seq(|names|, i requires 0 <= i < |names| => DimDepartmentRow(DepartmentId(i), names[i]))
  }

  /** Some row names `name` as its Responsible. */
  predicate HasResponsible(rows: seq<RawRecord>, name: string) {
    exists i :: 0 <= i < |rows| && rows[i].responsible == Some(name)
  }

  lemma ResponsibleMember(rows: seq<RawRecord>, name: string)
    ensures name in DepartmentNames(rows) <==> HasResponsible(rows, name)
  {
    var col := ResponsibleColumn(rows);
    if Some(name) in col {
      var i :| 0 <= i < |col| && col[i] == Some(name);
      assert rows[i].responsible == Some(name);
    }
    if HasResponsible(rows, name) {
      var i :| 0 <= i < |rows| && rows[i].responsible == Some(name);
      assert col[i] == Some(name);
    }
  }

  /** DimDepartment has a row for a name exactly when some input row has it as Responsible
      (a missing Responsible adds none), no name twice, one row per distinct present name,
      and rows in the order of the first input row naming each department. */
  lemma DimDepartmentContents(rows: seq<RawRecord>)
    ensures forall name :: (exists i :: 0 <= i < |BuildDimDepartment(rows)|
                              && BuildDimDepartment(rows)[i].departmentName == name)
                           <==> HasResponsible(rows, name)
    ensures forall i, j :: 0 <= i < j < |BuildDimDepartment(rows)| ==>
              BuildDimDepartment(rows)[i].departmentName != BuildDimDepartment(rows)[j].departmentName
    ensures |BuildDimDepartment(rows)| == |Elements(Present(ResponsibleColumn(rows)))|
    ensures forall i, j :: 0 <= i < j < |BuildDimDepartment(rows)| ==>
              FirstIndex(ResponsibleColumn(rows), Some(BuildDimDepartment(rows)[i].departmentName))
              < FirstIndex(ResponsibleColumn(rows), Some(BuildDimDepartment(rows)[j].departmentName))
  {
    var names := DepartmentNames(rows);
    var dim := BuildDimDepartment(rows);
    forall name
      ensures (exists i :: 0 <= i < |dim| && dim[i].departmentName == name) <==> HasResponsible(rows, name)
    {
      ResponsibleMember(rows, name);
      if name in names {
        var i :| 0 <= i < |names| && names[i] == name;
        assert dim[i].departmentName == name;
      }
    }
    DistinctCardinality(Present(ResponsibleColumn(rows)));
    DistinctPresentFirstAppearance(ResponsibleColumn(rows));
  }

  /** The department at position `i` gets key i + 1 from the enumerate loop, and its
      DepartmentID token carries the same number: DEPT_1, DEPT_2, ... */
  lemma DepartmentKeysMatchRows(rows: seq<RawRecord>)
    ensures forall i :: 0 <= i < |BuildDimDepartment(rows)| ==>
              BuildDimDepartment(rows)[i].departmentName in KeyMapping(DepartmentNames(rows))
              && KeyMapping(DepartmentNames(rows))[BuildDimDepartment(rows)[i].departmentName] == i + 1
              && BuildDimDepartment(rows)[i].departmentId == "DEPT_" + NatToString(i + 1)
  {
    var names := DepartmentNames(rows);
    var dim := BuildDimDepartment(rows);
    forall i | 0 <= i < |dim|
      ensures dim[i].departmentName in KeyMapping(names) && KeyMapping(names)[dim[i].departmentName] == i + 1
      ensures dim[i].departmentId == "DEPT_" + NatToString(i + 1)
    {
      KeyOfDistinct(names, i);
    }
  }

  /** No two DimDepartment rows share a DepartmentID. */
  lemma DepartmentIdsDistinct(rows: seq<RawRecord>)
    ensures forall i, j :: 0 <= i < j < |BuildDimDepartment(rows)| ==>
              BuildDimDepartment(rows)[i].departmentId != BuildDimDepartment(rows)[j].departmentId
  {
    var dim := BuildDimDepartment(rows);
    forall i, j | 0 <= i < j < |dim|
      ensures dim[i].departmentId != dim[j].departmentId
    {
      NatToStringInjective(i + 1, j + 1);
      assert dim[i].departmentId[5..] == NatToString(i + 1);
      assert dim[j].departmentId[5..] == NatToString(j + 1);
    }
  }

  // ---------------------------------------------------------------------------
  // DimProductCategory

  /** `df['Product_Category'].dropna().unique()`: each present category once, in the order
      of the first row having it. */
  function CategoryNames(rows: seq<RawRecord>): (names: seq<string>)
    ensures NoDup(names)
    ensures forall x :: x in names <==> Some(x) in CategoryColumn(rows)
    ensures forall i, j :: 0 <= i < j < |names| ==>
              FirstIndex(CategoryColumn(rows), Some(names[i])) < FirstIndex(CategoryColumn(rows), Some(names[j]))
  {
    DistinctPresentFirstAppearance(CategoryColumn(rows));
    Distinct(Present(CategoryColumn(rows)))
  }

  /** The DimProductCategory table: one row per distinct category, no name twice. */
  function BuildDimProductCategory(rows: seq<RawRecord>): (dim: seq<DimProductCategoryRow>)
    ensures |dim| == |CategoryNames(rows)|
    ensures forall i :: 0 <= i < |dim| ==> dim[i].productCategoryName == CategoryNames(rows)[i]
    ensures forall i, j :: 0 <= i < j < |dim| ==> dim[i].productCategoryName != dim[j].productCategoryName
  {
    var names := CategoryNames(rows);
    seq(|names|, i requires 0 <= i < |names| => DimProductCategoryRow(names[i]))
  }

  /** Some row has product category `name`. */
  predicate HasCategory(rows: seq<RawRecord>, name: string) {
    exists i :: 0 <= i < |rows| && rows[i].product.category == Some(name)
  }

  lemma CategoryMember(rows: seq<RawRecord>, name: string)
    ensures name in CategoryNames(rows) <==> HasCategory(rows, name)
  {
    var col := CategoryColumn(rows);
    if Some(name) in col {
      var i :| 0 <= i < |col| && col[i] == Some(name);
      assert rows[i].product.category == Some(name);
    }
    if HasCategory(rows, name) {
      var i :| 0 <= i < |rows| && rows[i].product.category == Some(name);
      assert col[i] == Some(name);
    }
  }

  /** DimProductCategory has a row for a category exactly when some input row has it, one
      row per distinct present category, in the order of the first input row having each. */
  lemma DimProductCategoryContents(rows: seq<RawRecord>)
    ensures forall name :: (exists i :: 0 <= i < |BuildDimProductCategory(rows)|
                              && BuildDimProductCategory(rows)[i].productCategoryName == name)
                           <==> HasCategory(rows, name)
    ensures |BuildDimProductCategory(rows)| == |Elements(Present(CategoryColumn(rows)))|
    ensures forall i, j :: 0 <= i < j < |BuildDimProductCategory(rows)| ==>
              FirstIndex(CategoryColumn(rows), Some(BuildDimProductCategory(rows)[i].productCategoryName))
              < FirstIndex(CategoryColumn(rows), Some(BuildDimProductCategory(rows)[j].productCategoryName))
  {
    var names := CategoryNames(rows);
    var dim := BuildDimProductCategory(rows);
    forall name
      ensures (exists i :: 0 <= i < |dim| && dim[i].productCategoryName == name) <==> HasCategory(rows, name)
    {
      CategoryMember(rows, name);
      if name in names {
        var i :| 0 <= i < |names| && names[i] == name;
        assert dim[i].productCategoryName == name;
      }
    }
    DistinctCardinality(Present(CategoryColumn(rows)));
    DistinctPresentFirstAppearance(CategoryColumn(rows));
  }

  /** The category at position `i` of DimProductCategory gets key i + 1. */
  lemma CategoryKeysMatchRows(rows: seq<RawRecord>)
    ensures forall i :: 0 <= i < |BuildDimProductCategory(rows)| ==>
              BuildDimProductCategory(rows)[i].productCategoryName in KeyMapping(CategoryNames(rows))
              && KeyMapping(CategoryNames(rows))[BuildDimProductCategory(rows)[i].productCategoryName] == i + 1
  {
    var names := CategoryNames(rows);
    var dim := BuildDimProductCategory(rows);
    forall i | 0 <= i < |dim|
      ensures dim[i].productCategoryName in KeyMapping(names)
      ensures KeyMapping(names)[dim[i].productCategoryName] == i + 1
    {
      KeyOfDistinct(names, i);
    }
  }

  // ---------------------------------------------------------------------------
  // DimProduct

  /** The eight product columns with `drop_duplicates()` applied: each tuple of the input
      once, in the order of the first row carrying it. */
  function ProductTuples(rows: seq<RawRecord>): (tuples: seq<ProductAttributes>)
    ensures NoDup(tuples)
    ensures forall t :: t in tuples <==> t in ProductColumns(rows)
    ensures forall i, j :: 0 <= i < j < |tuples| ==>
              FirstIndex(ProductColumns(rows), tuples[i]) < FirstIndex(ProductColumns(rows), tuples[j])
  {
    DistinctFirstAppearance(ProductColumns(rows));
    Distinct(ProductColumns(rows))
  }

  /** One DimProduct row: the tuple, with its category replaced by the category key
      (`products['Product_Category'].map(category_mapping)`). */
  function ProductRow(t: ProductAttributes, categoryMapping: map<string, int>): (row: DimProductRow)
    ensures row.productCategoryKey.Some? <==> t.category.Some? && t.category.value in categoryMapping
    ensures row.productCategoryKey.Some? ==> row.productCategoryKey.value == categoryMapping[t.category.value]
    ensures row.productCode == t.code && row.productName == t.name
    ensures row.productCost == t.cost && row.productSalesPrice == t.salesPrice
    ensures row.profitMarginPercent == t.marginPercent
    ensures row.priceCategory == t.priceCategory && row.marginCategory == t.marginCategory
  {
    DimProductRow(t.code, t.name, Lookup(categoryMapping, t.category), t.cost, t.salesPrice,
                  t.marginPercent, t.priceCategory, t.marginCategory)
  }

  /** The DimProduct table: row i is built from the i-th distinct product tuple. */
  function BuildDimProduct(rows: seq<RawRecord>, categoryMapping: map<string, int>): (dim: seq<DimProductRow>)
    ensures |dim| == |ProductTuples(rows)|
    ensures forall i :: 0 <= i < |dim| ==> dim[i] == ProductRow(ProductTuples(rows)[i], categoryMapping)
  {
    var tuples := ProductTuples(rows);
    seq(|tuples|, i requires 0 <= i < |tuples| => ProductRow(tuples[i], categoryMapping))
  }

  /** `products['Product_Code'].unique()` over the de-duplicated product table, missing
      codes left out. */
  function ProductCodes(rows: seq<RawRecord>): (codes: seq<string>)
    ensures NoDup(codes)
    ensures forall c :: c in codes <==> Some(c) in CodeColumn(ProductTuples(rows))
  {
    Distinct(Present(CodeColumn(ProductTuples(rows))))
  }

  /** The product tuples of DimProduct: each tuple that occurs in the input exactly once,
      no other, in order of first appearance. */
  lemma DimProductTuples(rows: seq<RawRecord>)
    ensures forall t :: t in ProductTuples(rows) <==> exists i :: 0 <= i < |rows| && rows[i].product == t
    ensures NoDup(ProductTuples(rows))
    ensures |ProductTuples(rows)| == |Elements(ProductColumns(rows))|
    ensures forall i, j :: 0 <= i < j < |ProductTuples(rows)| ==>
              FirstIndex(ProductColumns(rows), ProductTuples(rows)[i])
              < FirstIndex(ProductColumns(rows), ProductTuples(rows)[j])
  {
    var cols := ProductColumns(rows);
    forall t
      ensures t in ProductTuples(rows) <==> exists i :: 0 <= i < |rows| && rows[i].product == t
    {
      if t in cols {
        var i :| 0 <= i < |cols| && cols[i] == t;
        assert rows[i].product == t;
      }
      if exists i :: 0 <= i < |rows| && rows[i].product == t {
        var i :| 0 <= i < |rows| && rows[i].product == t;
        assert cols[i] == t;
      }
    }
    DistinctCardinality(cols);
    DistinctFirstAppearance(cols);
  }

  /** The category key of a DimProduct tuple is missing exactly when its category is, and
      otherwise names the DimProductCategory row (key k is row k) of that category. */
  predicate CategoryKeyNamesRow(key: Option<int>, category: Option<string>, dimCat: seq<DimProductCategoryRow>) {
    && (key.None? <==> category.None?)
    && (key.Some? ==> 1 <= key.value <= |dimCat| && dimCat[key.value - 1].productCategoryName == category.value)
  }

  lemma CategoryKeyOfTuple(rows: seq<RawRecord>, t: ProductAttributes)
    requires t in ProductTuples(rows)
    ensures CategoryKeyNamesRow(Lookup(KeyMapping(CategoryNames(rows)), t.category), t.category,
                                BuildDimProductCategory(rows))
  {
    if t.category.Some? {
      var cols := ProductColumns(rows);
      assert t in cols;
      var j :| 0 <= j < |cols| && cols[j] == t;
      assert rows[j].product.category == t.category;
      CategoryMember(rows, t.category.value);
      KeyNamesPosition(CategoryNames(rows), t.category.value);
    }
  }

  /** Every DimProduct row's ProductCategoryKey is missing exactly when its category is
      missing, and otherwise names the DimProductCategory row of its category. */
  lemma DimProductCategoryKeys(rows: seq<RawRecord>)
    ensures forall i :: 0 <= i < |BuildDimProduct(rows, KeyMapping(CategoryNames(rows)))| ==>
              CategoryKeyNamesRow(BuildDimProduct(rows, KeyMapping(CategoryNames(rows)))[i].productCategoryKey,
                                  ProductTuples(rows)[i].category, BuildDimProductCategory(rows))
  {
    var tuples := ProductTuples(rows);
    var dim := BuildDimProduct(rows, KeyMapping(CategoryNames(rows)));
    forall i | 0 <= i < |dim|
      ensures CategoryKeyNamesRow(dim[i].productCategoryKey, tuples[i].category, BuildDimProductCategory(rows))
    {
      assert dim[i] == ProductRow(tuples[i], KeyMapping(CategoryNames(rows)));
      CategoryKeyOfTuple(rows, tuples[i]);
    }
  }

  /** Membership in the present codes of a product table. */
  lemma CodeMember(products: seq<ProductAttributes>, c: string)
    ensures c in Present(CodeColumn(products)) <==> exists t :: t in products && t.code == Some(c)
  {
    var col := CodeColumn(products);
    if Some(c) in col {
      var i :| 0 <= i < |col| && col[i] == Some(c);
      assert products[i].code == Some(c);
    }
    if exists t :: t in products && t.code == Some(c) {
      var t :| t in products && t.code == Some(c);
      var i :| 0 <= i < |products| && products[i] == t;
      assert col[i] == Some(c);
    }
  }

  lemma CodeColumnSnoc(products: seq<ProductAttributes>, t: ProductAttributes)
    ensures Present(CodeColumn(products + [t]))
         == Present(CodeColumn(products)) + (if t.code.Some? then [t.code.value] else [])
  {
    var col := CodeColumn(products + [t]);
    assert col[..|products|] == CodeColumn(products);
  }

  /** Appending a product to a table appends its code to the distinct codes when the code is
      present and new. */
  lemma CodesSnoc(products: seq<ProductAttributes>, t: ProductAttributes)
    ensures Distinct(Present(CodeColumn(products + [t])))
         == if t.code.Some? && t.code.value !in Present(CodeColumn(products))
            then Distinct(Present(CodeColumn(products))) + [t.code.value]
            else Distinct(Present(CodeColumn(products)))
  {
    CodeColumnSnoc(products, t);
    var p := Present(CodeColumn(products));
    if t.code.Some? {
      DistinctSnoc(p, t.code.value);
    } else {
      assert p + [] == p;
    }
  }

  /** Tables with the same tuples have the same present codes. */
  lemma SameCodes(a: seq<ProductAttributes>, b: seq<ProductAttributes>, c: string)
    requires forall x :: x in a <==> x in b
    ensures c in Present(CodeColumn(a)) <==> c in Present(CodeColumn(b))
  {
    CodeMember(a, c);
    CodeMember(b, c);
  }

  /** Enumerating the codes of the de-duplicated product table gives the same codes, in the
      same order, as enumerating the codes of the raw product columns. */
  lemma {:induction false} DistinctCodesOfDistinct(products: seq<ProductAttributes>)
    ensures Distinct(Present(CodeColumn(Distinct(products)))) == Distinct(Present(CodeColumn(products)))
  {
    if products != [] {
      var n := |products| - 1;
      var init, t := products[..n], products[n];
      assert products == init + [t];
      DistinctCodesOfDistinct(init);
      DistinctSnoc(init, t);
      CodesSnoc(init, t);
      var d := Distinct(init);
      if t in init {
        if t.code.Some? {
          assert t in init && t.code == Some(t.code.value);
          CodeMember(init, t.code.value);
        }
      } else {
        CodesSnoc(d, t);
        if t.code.Some? {
          SameCodes(d, init, t.code.value);
        }
      }
    }
  }

  /** The codes `product_mapping` enumerates are the present codes of the input rows, each
      once, in the order of the first input row carrying each, even though they are
      enumerated over the de-duplicated product table. */
  lemma ProductCodesFirstAppearance(rows: seq<RawRecord>)
    ensures ProductCodes(rows) == Distinct(Present(CodeColumn(ProductColumns(rows))))
    ensures forall c :: c in ProductCodes(rows) <==> exists i :: 0 <= i < |rows| && rows[i].product.code == Some(c)
    ensures forall i, j :: 0 <= i < j < |ProductCodes(rows)| ==>
              FirstIndex(CodeColumn(ProductColumns(rows)), Some(ProductCodes(rows)[i]))
              < FirstIndex(CodeColumn(ProductColumns(rows)), Some(ProductCodes(rows)[j]))
  {
    var cols := ProductColumns(rows);
    DistinctCodesOfDistinct(cols);
    DistinctPresentFirstAppearance(CodeColumn(cols));
    forall c
      ensures c in ProductCodes(rows) <==> exists i :: 0 <= i < |rows| && rows[i].product.code == Some(c)
    {
      CodeMember(cols, c);
      if exists i :: 0 <= i < |rows| && rows[i].product.code == Some(c) {
        var i :| 0 <= i < |rows| && rows[i].product.code == Some(c);
        assert cols[i] in cols;
      }
    }
  }
}

=== FILE: fact_projection.dfy ===
/** The fact projection: one FactProduction row per input row, natural keys replaced by
    surrogate keys and dates by date keys, everything else copied. */
module FactProjection {
  import opened Collections
  import opened Calendar
  import opened KeyMapper
  import opened Records

  /** `date_to_key`: missing for a missing date, otherwise the `%Y%m%d` text read as an
      integer, which decodes back to the date. */
  function DateToKey(d: Option<ValidDate>): (k: Option<int>)
    ensures k.None? <==> d.None?
    ensures d.Some? ==> k.value == d.value.year * 10000 + d.value.month * 100 + d.value.day
    ensures d.Some? ==> DecodeDateKey(k.value) == d.value
  {
    match d
    case None => None
    case Some(date) =>
      DateKeyRoundTrip(date);
      Some(DateKey(date))
  }

  /** The natural key `product_mapping` is keyed by in the script: the product code. */
  function CodeOf(r: RawRecord): Option<string> {
    r.product.code
  }

  /** The natural key DimProduct is de-duplicated on: the whole attribute tuple. */
  function TupleOf(r: RawRecord): Option<ProductAttributes> {
    Some(r.product)
  }

  /** One fact row; `productOf` selects the product's natural key that `productMapping` is
      keyed by. */
  function ProjectFact<K(==)>(r: RawRecord, productOf: RawRecord -> Option<K>, productMapping: map<K, int>,
                              departmentMapping: map<string, int>): (f: FactRow)
    ensures Projects(r, f, productOf, productMapping, departmentMapping)
  {
    FactRow(r.reference, r.state, r.quantityProducing, r.quantityToProduce, r.totalQuantity,
            r.productionEfficiency, r.productionDurationDays,
            Lookup(productMapping, productOf(r)), Lookup(departmentMapping, r.responsible),
            DateToKey(r.start), DateToKey(r.end), DateToKey(r.deadline))
  }

  /** A surrogate-key cell holds the mapped key of a present, mapped natural key and is
      missing otherwise. */
  predicate ResolvedKey<K(==)>(k: Option<int>, natural: Option<K>, mapping: map<K, int>) {
    if natural.Some? && natural.value in mapping then k == Some(mapping[natural.value]) else k == None
  }

  /** A date-key cell is missing for a missing date and otherwise decodes to the date. */
  predicate ResolvedDate(k: Option<int>, d: Option<ValidDate>) {
    match d
    case None => k == None
    case Some(date) => k.Some? && DecodeDateKey(k.value) == date
  }

  /** `f` is the projection of `r`: keys resolved, dates encoded, the other columns copied. */
  predicate Projects<K(==)>(r: RawRecord, f: FactRow, productOf: RawRecord -> Option<K>,
                            productMapping: map<K, int>, departmentMapping: map<string, int>)
  {
    && ResolvedKey(f.productKey, productOf(r), productMapping)
    && ResolvedKey(f.departmentKey, r.responsible, departmentMapping)
    && ResolvedDate(f.startDateKey, r.start)
    && ResolvedDate(f.endDateKey, r.end)
    && ResolvedDate(f.deadlineDateKey, r.deadline)
    && f.reference == r.reference
    && f.state == r.state
    && f.quantityProducing == r.quantityProducing
    && f.quantityToProduce == r.quantityToProduce
    && f.totalQuantity == r.totalQuantity
    && f.productionEfficiency == r.productionEfficiency
    && f.productionDurationDays == r.productionDurationDays
  }

  /** The FactProduction table: exactly one row per input row, in input order, each the
      projection of its input row. */
  function BuildFactProduction<K(==)>(rows: seq<RawRecord>, productOf: RawRecord -> Option<K>,
                                      productMapping: map<K, int>,
                                      departmentMapping: map<string, int>): (fact: seq<FactRow>)
    ensures |fact| == |rows|
    ensures forall i :: 0 <= i < |rows| ==>
              Projects(rows[i], fact[i], productOf, productMapping, departmentMapping)
  {
    seq(|rows|, i requires 0 <= i < |rows| =>
      ProjectFact(rows[i], productOf, productMapping, departmentMapping))
  }

  /** A date-key cell is determined by its date: `ResolvedDate` admits only the `%Y%m%d`
      integer. */
  lemma ResolvedDateUnique(k: Option<int>, d: Option<ValidDate>)
    requires ResolvedDate(k, d)
    ensures k == DateToKey(d)
  {
    if d.Some? {
      var n := k.value;
      var q := n / 100;
      assert n == 100 * q + n % 100;
      assert q == 100 * (q / 100) + q % 100;
      RemainderOf(n, 10000, q / 100, 100 * (q % 100) + n % 100);
      assert n == 10000 * (n / 10000) + 100 * (q % 100) + n % 100;
    }
  }
}

=== FILE: key_mapper.dfy ===
/** The surrogate-key dictionaries the loader builds with
    `for i, x in enumerate(values): mapping[x] = i + 1`, and the `Series.map(mapping)`
    lookup that turns a natural key into a surrogate key or a missing cell. */
module KeyMapper {
  import opened Collections

  /** The dictionary after enumerating `values`: each value is bound to one more than its
      position, a later occurrence overwriting an earlier one. */
  function KeyMapping<T(==,!new)>(values: seq<T>): (m: map<T, int>)
    ensures forall x :: x in m <==> x in values
    ensures forall x :: x in values ==> m[x] == LastIndex(values, x) + 1
  {
    if values == [] then map[]
    else
      var n := |values| - 1;
      assert values == values[..n] + [values[n]];
      KeyMapping(values[..n])[values[n] := n + 1]
  }

  /** The enumerate loop that fills the dictionary in place. */
  method BuildKeyMapping<T(==,!new)>(values: seq<T>) returns (m: map<T, int>)
    ensures m == KeyMapping(values)
    ensures m.Keys == Elements(values)
    ensures NoDup(values) ==> forall i :: 0 <= i < |values| ==> m[values[i]] == i + 1
  {
    m := map[];
    for i := 0 to |values|
      invariant m == KeyMapping(values[..i])
    {
      assert values[..i + 1][..i] == values[..i];
      m := m[values[i] := i + 1];
    }
    assert values[..|values|] == values;
  }

  /** Over distinct values the keys are exactly 1..n: the i-th value gets i + 1, every key
      lies in 1..n, no key is shared, and there are n entries. */
  lemma KeyMappingDense<T(!new)>(values: seq<T>)
    requires NoDup(values)
    ensures forall i :: 0 <= i < |values| ==> KeyMapping(values)[values[i]] == i + 1
    ensures forall x :: x in KeyMapping(values) ==> 1 <= KeyMapping(values)[x] <= |values|
    ensures forall x, y ::
              (x in KeyMapping(values) && y in KeyMapping(values)
               && KeyMapping(values)[x] == KeyMapping(values)[y]) ==> x == y
    ensures |KeyMapping(values)| == |values|
  {
    var m := KeyMapping(values);
    forall i | 0 <= i < |values|
      ensures m[values[i]] == i + 1
    {
      var j := LastIndex(values, values[i]);
      assert values[j] == values[i];
    }
    forall x, y | x in m && y in m && m[x] == m[y]
      ensures x == y
    {
      assert values[LastIndex(values, x)] == x;
      assert values[LastIndex(values, y)] == y;
    }
    assert m.Keys == Elements(values);
    NoDupCardinality(values);
  }

  /** Over distinct values, the value at position i gets key i + 1. */
  lemma KeyOfDistinct<T(!new)>(values: seq<T>, i: int)
    requires NoDup(values) && 0 <= i < |values|
    ensures values[i] in KeyMapping(values) && KeyMapping(values)[values[i]] == i + 1
  {
    assert values[LastIndex(values, values[i])] == values[i];
  }

  /** Whatever the duplicates, the key of a value minus one is a position holding that value. */
  lemma KeyNamesPosition<T(!new)>(values: seq<T>, x: T)
    requires x in values
    ensures 1 <= KeyMapping(values)[x] <= |values|
    ensures values[KeyMapping(values)[x] - 1] == x
  {
  }

  /** `Series.map(mapping)` on one cell: the surrogate key of a present, mapped value;
      missing for a missing or unmapped value. */
  function Lookup<K, V>(m: map<K, V>, key: Option<K>): (r: Option<V>)
    ensures r.Some? <==> key.Some? && key.value in m
    ensures r.Some? ==> r.value == m[key.value]
  {
    match key
    case None => None
    case Some(k) => if k in m then Some(m[k]) else None
  }
}

=== FILE: records.dfy ===
/** The rows the transformation reads (one per manufacturing order of the silver layer) and
    the rows of the five star-schema tables it writes. Floating-point measures are carried
    as opaque numbers: nothing in the transformation computes with them. A missing cell
    (NaN / None) is `None`. */
module Records {
  import opened Collections
  import opened Calendar

  /** The eight product columns that `drop_duplicates()` compares when building DimProduct. */
  datatype ProductAttributes = ProductAttributes(
    code: Option<string>,
    name: Option<string>,
    category: Option<string>,
    cost: Option<real>,
    salesPrice: Option<real>,
    marginPercent: Option<real>,
    priceCategory: Option<string>,
    marginCategory: Option<string>)

  /** One input row (`Product_*` columns grouped as `product`). */
  datatype RawRecord = RawRecord(
    reference: Option<string>,
    product: ProductAttributes,
    responsible: Option<string>,
    start: Option<ValidDate>,
    end: Option<ValidDate>,
    deadline: Option<ValidDate>,
    state: Option<string>,
    quantityProducing: Option<real>,
    quantityToProduce: Option<real>,
    totalQuantity: Option<real>,
    productionEfficiency: Option<real>,
    productionDurationDays: Option<real>)

  /** DimDate(DateKey, Date, Year, Quarter, Month, MonthName, Day, DayOfWeek, DayOfWeekName). */
  datatype DimDateRow = DimDateRow(
    dateKey: int,
    date: ValidDate,
    year: int,
    quarter: int,
    month: int,
    monthName: string,
    day: int,
    dayOfWeek: int,
    dayOfWeekName: string)

  /** DimDepartment(DepartmentID, DepartmentName). */
  datatype DimDepartmentRow = DimDepartmentRow(departmentId: string, departmentName: string)

  /** DimProductCategory(ProductCategoryName). */
  datatype DimProductCategoryRow = DimProductCategoryRow(productCategoryName: string)

  /** DimProduct(ProductCode, ProductName, ProductCategoryKey, ProductCost, ProductSalesPrice,
      ProfitMarginPercent, PriceCategory, MarginCategory). */
  datatype DimProductRow = DimProductRow(
    productCode: Option<string>,
    productName: Option<string>,
    productCategoryKey: Option<int>,
    productCost: Option<real>,
    productSalesPrice: Option<real>,
    profitMarginPercent: Option<real>,
    priceCategory: Option<string>,
    marginCategory: Option<string>)

  /** FactProduction, in the column order the projection leaves: the copied columns first,
      then the five surrogate keys. */
  datatype FactRow = FactRow(
    reference: Option<string>,
    state: Option<string>,
    quantityProducing: Option<real>,
    quantityToProduce: Option<real>,
    totalQuantity: Option<real>,
    productionEfficiency: Option<real>,
    productionDurationDays: Option<real>,
    productKey: Option<int>,
    departmentKey: Option<int>,
    startDateKey: Option<int>,
    endDateKey: Option<int>,
    deadlineDateKey: Option<int>)

  // Columns of the input, as pandas `df['...']` selects them.

  function StartColumn(rows: seq<RawRecord>): seq<Option<ValidDate>> {
    seq(|rows|, i requires 0 <= i < |rows| => rows[i].start)
  }

  function EndColumn(rows: seq<RawRecord>): seq<Option<ValidDate>> {
    seq(|rows|, i requires 0 <= i < |rows| => rows[i].end)
  }

  function DeadlineColumn(rows: seq<RawRecord>): seq<Option<ValidDate>> {
    seq(|rows|, i requires 0 <= i < |rows| => rows[i].deadline)
  }

  function ResponsibleColumn(rows: seq<RawRecord>): seq<Option<string>> {
    seq(|rows|, i requires 0 <= i < |rows| => rows[i].responsible)
  }

  function CategoryColumn(rows: seq<RawRecord>): seq<Option<string>> {
    seq(|rows|, i requires 0 <= i < |rows| => rows[i].product.category)
  }

  /** The eight product columns of every row. */
  function ProductColumns(rows: seq<RawRecord>): seq<ProductAttributes> {
    seq(|rows|, i requires 0 <= i < |rows| => rows[i].product)
  }

  /** The code column of a product table. */
  function CodeColumn(products: seq<ProductAttributes>): seq<Option<string>> {
    seq(|products|, i requires 0 <= i < |products| => products[i].code)
  }
}

=== FILE: star_schema.dfy ===
/** The whole transformation, in the order the loader runs it: DimDate, DimDepartment and
    its mapping, DimProductCategory and its mapping, DimProduct and the product mapping,
    then FactProduction. Also the referential integrity of the result, and the product-key
    fault of the script with its correction. */
module StarSchema {
  import opened Collections
  import opened Decimal
  import opened Calendar
  import opened KeyMapper
  import opened Records
  import opened DateDimension
  import opened EntityDimensions
  import opened FactProjection

  datatype Tables = Tables(
    dimDate: seq<DimDateRow>,
    dimDepartment: seq<DimDepartmentRow>,
    dimProductCategory: seq<DimProductCategoryRow>,
    dimProduct: seq<DimProductRow>,
    factProduction: seq<FactRow>)

  /** `department_mapping`: the department of DimDepartment row i gets key i + 1, and the
      departments are its only keys. */
  function DepartmentMapping(rows: seq<RawRecord>): (m: map<string, int>)
    ensures m.Keys == Elements(DepartmentNames(rows))
    ensures forall i :: 0 <= i < |DepartmentNames(rows)| ==> m[DepartmentNames(rows)[i]] == i + 1
  {
    KeyMappingDense(DepartmentNames(rows));
    KeyMapping(DepartmentNames(rows))
  }

  /** `category_mapping`: the category of DimProductCategory row i gets key i + 1, and the
      categories are its only keys. */
  function CategoryMapping(rows: seq<RawRecord>): (m: map<string, int>)
    ensures m.Keys == Elements(CategoryNames(rows))
    ensures forall i :: 0 <= i < |CategoryNames(rows)| ==> m[CategoryNames(rows)[i]] == i + 1
  {
    KeyMappingDense(CategoryNames(rows));
    KeyMapping(CategoryNames(rows))
  }

  /** `product_mapping` as the script builds it, keyed by product code only: the i-th
      distinct code gets key i + 1, so the keys count codes, not DimProduct rows. */
  function ProductMapping(rows: seq<RawRecord>): (m: map<string, int>)
    ensures m.Keys == Elements(ProductCodes(rows))
    ensures forall i :: 0 <= i < |ProductCodes(rows)| ==> m[ProductCodes(rows)[i]] == i + 1
  {
    KeyMappingDense(ProductCodes(rows));
    KeyMapping(ProductCodes(rows))
  }

  /** `product_mapping` as intended: keyed by the whole attribute tuple, enumerated over
      DimProduct's own rows, so the tuple of DimProduct row i gets key i + 1. */
  function CorrectedProductMapping(rows: seq<RawRecord>): (m: map<ProductAttributes, int>)
    ensures m.Keys == Elements(ProductTuples(rows))
    ensures forall i :: 0 <= i < |ProductTuples(rows)| ==> m[ProductTuples(rows)[i]] == i + 1
  {
    KeyMappingDense(ProductTuples(rows));
    KeyMapping(ProductTuples(rows))
  }

  /** FactProduction as the script builds it, ProductKey looked up by code: row i is the
      projection of input row i. */
  function AsWrittenFacts(rows: seq<RawRecord>): (fact: seq<FactRow>)
    ensures |fact| == |rows|
    ensures forall i :: 0 <= i < |rows| ==>
              Projects(rows[i], fact[i], CodeOf, ProductMapping(rows), DepartmentMapping(rows))
  {
    BuildFactProduction(rows, CodeOf, ProductMapping(rows), DepartmentMapping(rows))
  }

  /** FactProduction with the corrected ProductKey, looked up by attribute tuple: row i is
      the projection of input row i. */
  function Facts(rows: seq<RawRecord>): (fact: seq<FactRow>)
    ensures |fact| == |rows|
    ensures forall i :: 0 <= i < |rows| ==>
              Projects(rows[i], fact[i], TupleOf, CorrectedProductMapping(rows), DepartmentMapping(rows))
  {
    BuildFactProduction(rows, TupleOf, CorrectedProductMapping(rows), DepartmentMapping(rows))
  }

  /** The five tables the transformation produces: one DimDate row per distinct date, one
      dimension row per distinct present department, category and product tuple, and one
      fact row per input row. */
  function StarTables(rows: seq<RawRecord>): (tables: Tables)
    ensures |tables.dimDate| == |Elements(AllDates(rows))|
    ensures |tables.dimDepartment| == |Elements(Present(ResponsibleColumn(rows)))|
    ensures |tables.dimProductCategory| == |Elements(Present(CategoryColumn(rows)))|
    ensures |tables.dimProduct| == |Elements(ProductColumns(rows))|
    ensures |tables.factProduction| == |rows|
  {
    DimDateCount(rows);
    DimDepartmentContents(rows);
    DimProductCategoryContents(rows);
    DimProductTuples(rows);
    Tables(BuildDimDate(rows), BuildDimDepartment(rows), BuildDimProductCategory(rows),
           BuildDimProduct(rows, CategoryMapping(rows)), Facts(rows))
  }

  /** The department and date cells of a fact row, whichever way products are keyed. */
  lemma FactDepartmentAndDates(rows: seq<RawRecord>, i: int)
    requires 0 <= i < |rows|
    ensures Facts(rows)[i].departmentKey == Lookup(DepartmentMapping(rows), rows[i].responsible)
    ensures Facts(rows)[i].startDateKey == DateToKey(rows[i].start)
    ensures Facts(rows)[i].endDateKey == DateToKey(rows[i].end)
    ensures Facts(rows)[i].deadlineDateKey == DateToKey(rows[i].deadline)
    ensures AsWrittenFacts(rows)[i] == Facts(rows)[i].(productKey := AsWrittenFacts(rows)[i].productKey)
  {
    assert Facts(rows)[i] == ProjectFact(rows[i], TupleOf, CorrectedProductMapping(rows), DepartmentMapping(rows));
    assert AsWrittenFacts(rows)[i] == ProjectFact(rows[i], CodeOf, ProductMapping(rows), DepartmentMapping(rows));
  }

  // ---------------------------------------------------------------------------
  // Referential integrity of the fact table

  /** A DepartmentKey cell is missing exactly when Responsible is, and otherwise names the
      DimDepartment row (key k is row k, token DEPT_k) holding that Responsible. */
  predicate DepartmentKeyNamesRow(k: Option<int>, responsible: Option<string>, dim: seq<DimDepartmentRow>) {
    && (k.None? <==> responsible.None?)
    && (k.Some? ==>
          && 1 <= k.value <= |dim|
          && dim[k.value - 1].departmentName == responsible.value
          && dim[k.value - 1].departmentId == "DEPT_" + NatToString(k.value))
  }

  lemma DepartmentKeyOfName(rows: seq<RawRecord>, name: Option<string>)
    requires name.Some? ==> HasResponsible(rows, name.value)
    ensures DepartmentKeyNamesRow(Lookup(DepartmentMapping(rows), name), name, BuildDimDepartment(rows))
  {
    if name.Some? {
      ResponsibleMember(rows, name.value);
      KeyNamesPosition(DepartmentNames(rows), name.value);
    }
  }

  /** Every DepartmentKey of the fact table, however products are keyed, names the
      DimDepartment row of its Responsible. */
  lemma FactDepartmentKeys<K>(rows: seq<RawRecord>, productOf: RawRecord -> Option<K>, productMapping: map<K, int>)
    ensures forall i :: 0 <= i < |rows| ==>
              DepartmentKeyNamesRow(BuildFactProduction(rows, productOf, productMapping, DepartmentMapping(rows))[i].departmentKey,
                                    rows[i].responsible, BuildDimDepartment(rows))
  {
    var fact := BuildFactProduction(rows, productOf, productMapping, DepartmentMapping(rows));
    forall i | 0 <= i < |rows|
      ensures DepartmentKeyNamesRow(fact[i].departmentKey, rows[i].responsible, BuildDimDepartment(rows))
    {
      assert fact[i] == ProjectFact(rows[i], productOf, productMapping, DepartmentMapping(rows));
      DepartmentKeyOfName(rows, rows[i].responsible);
    }
  }

  /** A date key resolves to a DimDate row holding that key. */
  predicate DateKeyInDimension(k: Option<int>, dim: seq<DimDateRow>) {
    k.Some? ==> exists j :: 0 <= j < |dim| && dim[j].dateKey == k.value
  }

  lemma DateKeyResolves(rows: seq<RawRecord>, d: Option<ValidDate>)
    requires d.Some? ==> OccursIn(d.value, rows)
    ensures DateKeyInDimension(DateToKey(d), BuildDimDate(rows))
  {
    if d.Some? {
      DimDateKeyOf(rows, d.value);
      assert DateToKey(d) == Some(DateKey(d.value));
    }
  }

  /** Every Start, End and Deadline key of the fact table is the key of a DimDate row. */
  lemma FactDateKeys<K>(rows: seq<RawRecord>, productOf: RawRecord -> Option<K>, productMapping: map<K, int>,
                            departmentMapping: map<string, int>)
    ensures forall i :: 0 <= i < |rows| ==>
              var f := BuildFactProduction(rows, productOf, productMapping, departmentMapping)[i];
              && DateKeyInDimension(f.startDateKey, BuildDimDate(rows))
              && DateKeyInDimension(f.endDateKey, BuildDimDate(rows))
              && DateKeyInDimension(f.deadlineDateKey, BuildDimDate(rows))
  {
    var fact := BuildFactProduction(rows, productOf, productMapping, departmentMapping);
    forall i | 0 <= i < |rows|
      ensures DateKeyInDimension(fact[i].startDateKey, BuildDimDate(rows))
      ensures DateKeyInDimension(fact[i].endDateKey, BuildDimDate(rows))
      ensures DateKeyInDimension(fact[i].deadlineDateKey, BuildDimDate(rows))
    {
      assert fact[i] == ProjectFact(rows[i], productOf, productMapping, departmentMapping);
      DateKeyResolves(rows, rows[i].start);
      DateKeyResolves(rows, rows[i].end);
      DateKeyResolves(rows, rows[i].deadline);
    }
  }

  /** A ProductKey cell names the DimProduct row built from the order's own attribute
      tuple: key k is row k. */
  predicate ProductKeyNamesRow(k: Option<int>, t: ProductAttributes, dim: seq<DimProductRow>,
                               categoryMapping: map<string, int>) {
    && k.Some?
    && 1 <= k.value <= |dim|
    && dim[k.value - 1] == ProductRow(t, categoryMapping)
  }

  /** With the corrected mapping, every order's ProductKey names the DimProduct row of its
      attribute tuple, and every other column of its fact row is as the script computes it. */
  lemma ProductKeyOfOrder(rows: seq<RawRecord>, i: int)
    requires 0 <= i < |rows|
    ensures ProductKeyNamesRow(Facts(rows)[i].productKey, rows[i].product,
                               BuildDimProduct(rows, CategoryMapping(rows)), CategoryMapping(rows))
    ensures ProductTuples(rows)[Facts(rows)[i].productKey.value - 1] == rows[i].product
    ensures Facts(rows)[i] == AsWrittenFacts(rows)[i].(productKey := Facts(rows)[i].productKey)
  {
    var tuples := ProductTuples(rows);
    var t := rows[i].product;
    assert ProductColumns(rows)[i] == t;
    KeyNamesPosition(tuples, t);
    var k := KeyMapping(tuples)[t];
    assert Facts(rows)[i] == ProjectFact(rows[i], TupleOf, CorrectedProductMapping(rows), DepartmentMapping(rows));
    assert AsWrittenFacts(rows)[i] == ProjectFact(rows[i], CodeOf, ProductMapping(rows), DepartmentMapping(rows));
    assert BuildDimProduct(rows, CategoryMapping(rows))[k - 1] == ProductRow(t, CategoryMapping(rows));
  }

  /** Every ProductKey of the fact table names the DimProduct row of its order's tuple. */
  lemma FactProductKeys(rows: seq<RawRecord>)
    ensures forall i :: 0 <= i < |rows| ==>
              ProductKeyNamesRow(Facts(rows)[i].productKey, rows[i].product,
                                 BuildDimProduct(rows, CategoryMapping(rows)), CategoryMapping(rows))
  {
    forall i | 0 <= i < |rows|
      ensures ProductKeyNamesRow(Facts(rows)[i].productKey, rows[i].product,
                                 BuildDimProduct(rows, CategoryMapping(rows)), CategoryMapping(rows))
    {
      ProductKeyOfOrder(rows, i);
    }
  }

  // ---------------------------------------------------------------------------
  // The transformation as the script runs it, with the product key corrected

  /** Builds the five tables, filling each mapping with the enumerate loop before the tables
      that use it. The fact table has one row per input row, and every surrogate key in the
      result resolves: department and date keys to their dimension rows, product keys to
      the DimProduct row of the order's own product, category keys to DimProductCategory
      rows (missing exactly when the category is). */
  method Transform(rows: seq<RawRecord>) returns (tables: Tables)
    ensures tables == StarTables(rows)
    ensures |tables.factProduction| == |rows|
    ensures forall i :: 0 <= i < |rows| ==>
              DepartmentKeyNamesRow(tables.factProduction[i].departmentKey, rows[i].responsible,
                                    tables.dimDepartment)
    ensures forall i :: 0 <= i < |rows| ==>
              && DateKeyInDimension(tables.factProduction[i].startDateKey, tables.dimDate)
              && DateKeyInDimension(tables.factProduction[i].endDateKey, tables.dimDate)
              && DateKeyInDimension(tables.factProduction[i].deadlineDateKey, tables.dimDate)
    ensures forall i :: 0 <= i < |rows| ==>
              ProductKeyNamesRow(tables.factProduction[i].productKey, rows[i].product,
                                 tables.dimProduct, CategoryMapping(rows))
    ensures |tables.dimProduct| == |ProductTuples(rows)|
    ensures forall i :: 0 <= i < |tables.dimProduct| ==>
              CategoryKeyNamesRow(tables.dimProduct[i].productCategoryKey, ProductTuples(rows)[i].category,
                                  tables.dimProductCategory)
  {
    var dimDate := BuildDimDate(rows);

    var departments := DepartmentNames(rows);
    var dimDepartment := BuildDimDepartment(rows);
    var departmentMapping := BuildKeyMapping(departments);

    var categories := CategoryNames(rows);
    var dimProductCategory := BuildDimProductCategory(rows);
    var categoryMapping := BuildKeyMapping(categories);

    var products := ProductTuples(rows);
    var dimProduct := BuildDimProduct(rows, categoryMapping);
    var productMapping := BuildKeyMapping(products);

    var fact := BuildFactProduction(rows, TupleOf, productMapping, departmentMapping);
    tables := Tables(dimDate, dimDepartment, dimProductCategory, dimProduct, fact);

    FactDepartmentKeys(rows, TupleOf, productMapping);
    FactDateKeys(rows, TupleOf, productMapping, departmentMapping);
    FactProductKeys(rows);
    DimProductCategoryKeys(rows);
  }

  // ---------------------------------------------------------------------------
  // The product key as written: keyed by code only

  /** A code-keyed ProductKey cell is missing exactly when the code is, and otherwise is one
      more than the position of the code among the distinct codes, and some DimProduct row
      carries that code. */
  predicate ProductKeyNamesCode(k: Option<int>, code: Option<string>, codes: seq<string>,
                                dim: seq<DimProductRow>) {
    && (k.None? <==> code.None?)
    && (k.Some? ==>
          && 1 <= k.value <= |codes|
          && codes[k.value - 1] == code.value
          && exists j :: 0 <= j < |dim| && dim[j].productCode == code)
  }

  lemma AsWrittenProductKeyOfOrder(rows: seq<RawRecord>, i: int)
    requires 0 <= i < |rows|
    ensures ProductKeyNamesCode(AsWrittenFacts(rows)[i].productKey, rows[i].product.code,
                                ProductCodes(rows), BuildDimProduct(rows, CategoryMapping(rows)))
  {
    var t := rows[i].product;
    assert AsWrittenFacts(rows)[i] == ProjectFact(rows[i], CodeOf, ProductMapping(rows), DepartmentMapping(rows));
    if t.code.Some? {
      var tuples := ProductTuples(rows);
      assert ProductColumns(rows)[i] == t;
      assert t in tuples;
      CodeMember(tuples, t.code.value);
      KeyNamesPosition(ProductCodes(rows), t.code.value);
      var j :| 0 <= j < |tuples| && tuples[j] == t;
      assert BuildDimProduct(rows, CategoryMapping(rows))[j].productCode == t.code;
    }
  }

  /** As written, every ProductKey still resolves to a code that DimProduct carries (but not
      necessarily to the row of the order's own product: see SharedCodeShiftsProductKeys). */
  lemma AsWrittenProductKeys(rows: seq<RawRecord>)
    ensures forall i :: 0 <= i < |rows| ==>
              ProductKeyNamesCode(AsWrittenFacts(rows)[i].productKey, rows[i].product.code, ProductCodes(rows),
                                  BuildDimProduct(rows, CategoryMapping(rows)))
  {
    forall i | 0 <= i < |rows|
      ensures ProductKeyNamesCode(AsWrittenFacts(rows)[i].productKey, rows[i].product.code, ProductCodes(rows),
                                  BuildDimProduct(rows, CategoryMapping(rows)))
    {
      AsWrittenProductKeyOfOrder(rows, i);
    }
  }

  // ---------------------------------------------------------------------------
  // Small sequences whose `unique()` is known

  lemma PresentOfThree<T(!new)>(a: T, b: T, c: T)
    ensures Present([Some(a), Some(b), Some(c)]) == [a, b, c]
  {
    assert [Some(a), Some(b), Some(c)][..2] == [Some(a), Some(b)];
    assert [Some(a), Some(b)][..1] == [Some(a)];
    assert [Some(a)][..0] == [];
  }

  lemma DistinctOfThree<T(!new)>(a: T, b: T, c: T)
    requires a != b && a != c && b != c
    ensures Distinct([a, b, c]) == [a, b, c]
  {
    assert [a][..0] == [];
    assert Distinct([a]) == [a];
    assert [a, b][..1] == [a];
    assert Distinct([a, b]) == [a, b];
    assert [a, b, c][..2] == [a, b];
  }

  lemma DistinctRepeatedHead<T(!new)>(a: T, b: T)
    requires a != b
    ensures Distinct([a, a, b]) == [a, b]
  {
    assert [a, a, b][..2] == [a, a];
    assert [a, a][..1] == [a];
    assert [a][..0] == [];
  }

  // ---------------------------------------------------------------------------
  // Product keys: DimProduct is keyed by the full tuple, `product_mapping` by code only

  function Product(code: string, cost: real): ProductAttributes {
    ProductAttributes(Some(code), None, None, Some(cost), None, None, None, None)
  }

  function OrderOf(reference: string, product: ProductAttributes): RawRecord {
    RawRecord(Some(reference), product, None, None, None, None, None, None, None, None, None, None)
  }

  /** Two orders of the same code with different costs, then a second code. */
  function SharedCodeRows(): seq<RawRecord> {
    [OrderOf("MO1", Product("P1", 1.0)), OrderOf("MO2", Product("P1", 2.0)), OrderOf("MO3", Product("P2", 3.0))]
  }

  lemma SharedCodeTuples()
    ensures ProductTuples(SharedCodeRows()) == [Product("P1", 1.0), Product("P1", 2.0), Product("P2", 3.0)]
  {
    assert ProductColumns(SharedCodeRows()) == [Product("P1", 1.0), Product("P1", 2.0), Product("P2", 3.0)];
    DistinctOfThree(Product("P1", 1.0), Product("P1", 2.0), Product("P2", 3.0));
  }

  lemma SharedCodeCodes()
    ensures ProductCodes(SharedCodeRows()) == ["P1", "P2"]
  {
    SharedCodeTuples();
    var col := CodeColumn([Product("P1", 1.0), Product("P1", 2.0), Product("P2", 3.0)]);
    assert col == [Some("P1"), Some("P1"), Some("P2")];
    PresentOfThree("P1", "P1", "P2");
    assert Present(col) == ["P1", "P1", "P2"];
    DistinctRepeatedHead("P1", "P2");
    assert ProductCodes(SharedCodeRows()) == Distinct(Present(col));
  }

  /** As written, a code with two attribute tuples gives two DimProduct rows but one product
      key, so the keys fall out of step with DimProduct's rows: the third order (code P2)
      gets ProductKey 2, while DimProduct's second row is the second P1 tuple. */
  lemma SharedCodeShiftsProductKeys()
    ensures |StarTables(SharedCodeRows()).dimProduct| == 3
    ensures SharedCodeRows()[2].product.code == Some("P2")
    ensures AsWrittenFacts(SharedCodeRows())[2].productKey == Some(2)
    ensures StarTables(SharedCodeRows()).dimProduct[1].productCode == Some("P1")
  {
    var rows := SharedCodeRows();
    SharedCodeTuples();
    SharedCodeCodes();
    KeyMappingDense(["P1", "P2"]);
    assert ["P1", "P2"][1] == "P2";
    assert AsWrittenFacts(rows)[2] == ProjectFact(rows[2], CodeOf, ProductMapping(rows), DepartmentMapping(rows));
  }

  /** On the same orders the corrected key of the P2 order is 3, the row of DimProduct that
      carries P2. */
  lemma CorrectedKeyOfSharedCode()
    ensures Facts(SharedCodeRows())[2].productKey == Some(3)
    ensures StarTables(SharedCodeRows()).dimProduct[2].productCode == Some("P2")
  {
    var rows := SharedCodeRows();
    SharedCodeTuples();
    KeyMappingDense([Product("P1", 1.0), Product("P1", 2.0), Product("P2", 3.0)]);
    assert Facts(rows)[2] == ProjectFact(rows[2], TupleOf, CorrectedProductMapping(rows), DepartmentMapping(rows));
  }

  // ---------------------------------------------------------------------------
  // A worked example: one order with three dates and one department

  function SingleOrder(): seq<RawRecord> {
    [ RawRecord(Some("MO001"), Product("P1", 1.0), Some("Assembly"),
                Some(Date(2024, 1, 10)), Some(Date(2024, 1, 12)), Some(Date(2024, 1, 15)),
                None, None, None, None, None, None) ]
  }

  lemma SingleOrderAllDates()
    ensures AllDates(SingleOrder()) == [Date(2024, 1, 10), Date(2024, 1, 12), Date(2024, 1, 15)]
  {
    var rows := SingleOrder();
    assert StartColumn(rows) == [Some(Date(2024, 1, 10))];
    assert EndColumn(rows) == [Some(Date(2024, 1, 12))];
    assert DeadlineColumn(rows) == [Some(Date(2024, 1, 15))];
    assert [Some(Date(2024, 1, 10))][..0] == [];
    assert [Some(Date(2024, 1, 12))][..0] == [];
    assert [Some(Date(2024, 1, 15))][..0] == [];
  }

  lemma SingleOrderAscending()
    ensures StrictlyAscending([Date(2024, 1, 10), Date(2024, 1, 12), Date(2024, 1, 15)])
  {
  }

  lemma SingleOrderDistinctDates()
    ensures Distinct(AllDates(SingleOrder())) == [Date(2024, 1, 10), Date(2024, 1, 12), Date(2024, 1, 15)]
  {
    SingleOrderAllDates();
    DistinctOfThree(Date(2024, 1, 10), Date(2024, 1, 12), Date(2024, 1, 15));
  }

  lemma SingleOrderDates()
    ensures DimDateDates(SingleOrder()) == [Date(2024, 1, 10), Date(2024, 1, 12), Date(2024, 1, 15)]
  {
    var dates: seq<ValidDate> := [Date(2024, 1, 10), Date(2024, 1, 12), Date(2024, 1, 15)];
    SingleOrderDistinctDates();
    SingleOrderAscending();
    SortAscending(dates);
    assert DimDateDates(SingleOrder()) == SortDates(dates);
  }

  lemma SingleOrderDepartments()
    ensures DepartmentNames(SingleOrder()) == ["Assembly"]
  {
    assert ResponsibleColumn(SingleOrder()) == [Some("Assembly")];
    assert [Some("Assembly")][..0] == [];
    assert ["Assembly"][..0] == [];
  }

  /** DimDate of the example: one row per date, ascending, keyed 20240110, 20240112 and
      20240115. */
  lemma SingleOrderDimDate()
    ensures |BuildDimDate(SingleOrder())| == 3
    ensures BuildDimDate(SingleOrder())[0] == DateRow(Date(2024, 1, 10))
    ensures BuildDimDate(SingleOrder())[1] == DateRow(Date(2024, 1, 12))
    ensures BuildDimDate(SingleOrder())[2] == DateRow(Date(2024, 1, 15))
    ensures BuildDimDate(SingleOrder())[0].dateKey == 20240110
    ensures BuildDimDate(SingleOrder())[1].dateKey == 20240112
    ensures BuildDimDate(SingleOrder())[2].dateKey == 20240115
  {
    SingleOrderDates();
  }

  /** 2024-01-10 is day 19732 counted from 1970-01-01. */
  lemma SingleOrderDayCount()
    ensures DaysFromCivil(Date(2024, 1, 10)) == 19732
  {
    var y, mp := 2023, 10;
    assert y / 400 == 5 && y - 5 * 400 == 23;
    assert (153 * mp + 2) / 5 + 10 - 1 == 315;
    assert 23 * 365 + 23 / 4 - 23 / 100 + 315 == 8715;
    assert 5 * 146097 + 8715 - 719468 == 19732;
  }

  /** 2024-01-10 is a Wednesday (day 3 of the week) in January of the first quarter. */
  lemma SingleOrderFirstDate()
    ensures DateRow(Date(2024, 1, 10)).dayOfWeek == 3
    ensures DateRow(Date(2024, 1, 10)).dayOfWeekName == "Wednesday"
    ensures DateRow(Date(2024, 1, 10)).monthName == "January"
    ensures DateRow(Date(2024, 1, 10)).quarter == 1
  {
    SingleOrderDayCount();
    assert (19732 + 3) % 7 == 2;
    assert Weekday(Date(2024, 1, 10)) == 2;
  }

  lemma FirstDepartmentId()
    ensures DepartmentId(0) == "DEPT_1"
  {
    assert NatToString(1) == ['1'];
  }

  /** DimDepartment holds the one department as DEPT_1. */
  lemma SingleOrderDimDepartment()
    ensures BuildDimDepartment(SingleOrder()) == [DimDepartmentRow("DEPT_1", "Assembly")]
  {
    SingleOrderDepartments();
    FirstDepartmentId();
  }

  lemma SingleOrderFactDepartment()
    ensures Facts(SingleOrder())[0].departmentKey == Some(1)
  {
    var rows := SingleOrder();
    var m := DepartmentMapping(rows);
    assert "Assembly" in m && m["Assembly"] == 1 by {
      SingleOrderDepartments();
      assert DepartmentNames(rows)[0] == "Assembly";
    }
    assert Facts(rows)[0].departmentKey == Lookup(m, Some("Assembly")) by {
      FactDepartmentAndDates(rows, 0);
    }
  }

  lemma SingleOrderFactDates()
    ensures Facts(SingleOrder())[0].startDateKey == Some(20240110)
    ensures Facts(SingleOrder())[0].endDateKey == Some(20240112)
    ensures Facts(SingleOrder())[0].deadlineDateKey == Some(20240115)
  {
    var rows := SingleOrder();
    var r := rows[0];
    assert DateToKey(r.start) == Some(20240110) && DateToKey(r.end) == Some(20240112)
        && DateToKey(r.deadline) == Some(20240115);
    FactDepartmentAndDates(rows, 0);
  }

  /** The fact row carries department key 1 and the keys of its three dates. */
  lemma SingleOrderFact()
    ensures Facts(SingleOrder())[0].departmentKey == Some(1)
    ensures Facts(SingleOrder())[0].startDateKey == Some(20240110)
    ensures Facts(SingleOrder())[0].endDateKey == Some(20240112)
    ensures Facts(SingleOrder())[0].deadlineDateKey == Some(20240115)
  {
    SingleOrderFactDepartment();
    SingleOrderFactDates();
  }
}
